=== FILE: README.md ===
# darktable star ratings and RawSpeed loader outcomes, in Dafny

This project models two pieces of darktable's integer and flag logic and
proves properties of the models.

**Ratings** (`ratings.dfy`, module `Ratings`) covers `src/common/ratings.c`.
An image's rating is stored in its `flags` word as a reject bit (8) and a
three-bit star field (mask 7):

- `dt_ratings_get` reads the rating back.
- `_ratings_apply_to_image` writes a rating. REJECT is a toggle, and a second
  one-star request clears the stars unless `rating_one_double_tap` is set.
- `_ratings_apply` turns UPGRADE and DOWNGRADE into a clamped star count.
  When an image reading as REJECT is asked to upgrade or downgrade, it hands
  REJECT on instead, which toggles the reject bit. For an image whose reject
  bit is set this clears the bit. It also appends one undo record
  per image.
- `dt_ratings_apply_on_list` and `dt_ratings_apply_on_image` are the two
  entry points. The second adds the first-image double-tap toggle and the
  guard against a non-positive image id.
- `_pop_undo` replays each record's before value (undo) or after value (redo).

The image cache is modelled as a map from image id to flags word. The
preference and the grouping result are parameters. The undo framework is
reduced to the list of records it receives.

**Raw loading** (`rawload.dfy`, module `RawLoad`, and `smallraw.dfy`, module
`SmallRaw`) covers the decision logic of `src/common/imageio_rawspeed.cc`:
`dt_imageio_open_rawspeed`, `dt_imageio_open_rawspeed_preview` and the two
small-raw helpers. RawSpeed is not modelled. Each of its steps is an abstract
outcome (pass, or throw one of the named exception classes, or another
class), and each allocation is a boolean. The model states:

- which result code each exit returns, or which exception escapes;
- which of the file map, the decoder and the preview buffer each exit still
  holds;
- the order of `failOnUnknown` and `checkSupport`;
- when the small-raw branch is taken, and which LDR/RAW/HDR flags each
  branch sets;
- the orientation swap of width and height;
- the Canon EOS 50D row padding;
- the source and destination indices of the small-raw copy loop.

Constants that come from headers outside this model are declared with
upstream darktable's values and are assumptions:

- `DT_VIEW_DESERT` = 0, `DT_VIEW_STAR_1..5` = 1..5, `DT_VIEW_REJECT` = 6;
- `DT_VIEW_RATINGS_MASK` = 7, `DT_IMAGE_REJECTED` = 8;
- `DT_IMAGE_LDR` = 32, `DT_IMAGE_RAW` = 64, `DT_IMAGE_HDR` = 128.

`DT_RATINGS_UPGRADE` = -1 and `DT_RATINGS_DOWNGRADE` = -2 are defined in
`src/common/ratings.c` itself. Flag words are unbounded integers. Their bits
are read by Euclidean division and remainder by powers of two, which select
the same bits as `&` on a two's-complement C int. The small-raw copy indices
are unbounded integers too; "Left out" gives the range in which they match
the source's C `int` arithmetic.

## Model

| member | source | states |
|---|---|---|
| `Ratings.RatingOf` | src/common/ratings.c:47-50 | The rating read from a flags word lies in 0..7. It is REJECT whenever the reject bit is set, and the star field otherwise. |
| `Ratings.RatingOfParts` | src/common/ratings.c:47-50 | A word built from other bits, a reject bit and stars s reads as REJECT when rejected and as s otherwise. |
| `Ratings.Get` | src/common/ratings.c:41-54 | An image the cache does not hold reads as 0 stars. Any other reads as the rating of its own flags word. |
| `Ratings.DoubleTap` | src/common/ratings.c:74-78 | The double-tap rule, with no contract of its own. What it does to a stored rating is stated by `Ratings.Stored`, `Ratings.StarRoundTrip` and `Ratings.ApplyOnImageRatings`. |
| `Ratings.Stored` | src/common/ratings.c:74-78 | The stored rating is the request, or 0. It differs from the request exactly when the preference is off and both the image and the request are one star. |
| `Ratings.ApplyToFlags` | src/common/ratings.c:64-81 | REJECT flips only the reject bit. Any other rating clears the reject bit and sets the star field to the low three bits of the stored rating (0 when the double-tap rule fires). All bits above the reject bit are kept. |
| `Ratings.ApplyToImage` | src/common/ratings.c:56-90 | Only the named image changes, and only if the cache holds it; the set of images is kept. |
| `Ratings.EffectiveRating` | src/common/ratings.c:127-133 | A rating 0..6 passes unchanged; upgrade gives min(5, old+1) and downgrade max(0, old-1) for 0..5 stars; a rejected image asked to move passes REJECT on; a valid request always yields 0..6. |
| `Ratings.ApplyList` | src/common/ratings.c:112-137 | Images not in the list keep their flags. With undo on, there is one record per image, in list order, whose after value is the requested rating. With undo off there are no records. |
| `Ratings.ApplyListRecordsBefore` | src/common/ratings.c:117-122 | Over distinct images, each undo record's before value is the rating its image had before the operation. |
| `Ratings.ApplyOnList` | src/common/ratings.c:139-155 | An empty list changes nothing and records nothing. A non-empty list is rated exactly as `_ratings_apply` rates it. Images not in the list keep their flags. |
| `Ratings.ApplyOnListSetsRating` | src/common/ratings.c:139-155 | Over distinct images, every listed image reads back the requested star rating 0..5, or 0 where the double-tap rule fires. |
| `Ratings.ApplyOnListUndoRestores` | src/common/ratings.c:139-155 | Over distinct images and a valid request, undo gives every image back its former rating, the empty list included. |
| `Ratings.ApplyOnImage` | src/common/ratings.c:157-201 | A non-positive id changes nothing and records nothing. Otherwise, with undo off nothing is recorded, and with undo on the records name the rated images in order: the grouped list when grouping is on, the image alone otherwise. Their after value is the request, or 0 when the first-image toggle fires. Without grouping, other images keep their flags. |
| `Ratings.ApplyOnImageUndoRestores` | src/common/ratings.c:176-197 | Over distinct rated images and a valid request, each record holds the rating its image showed before, and undo gives every image back its former rating. The operation and the undo read the same double-tap preference. |
| `Ratings.ApplyOnImageRatings` | src/common/ratings.c:167-190 | Over distinct rated images: when the toggle fires on the first image, every rated image the cache holds reads 0. Otherwise each gets the request as computed for that image alone, and a star request 0..5 reads back as asked, or 0 under the double-tap rule. |
| `Ratings.ToggleClearsGroup` | src/common/ratings.c:170-178 | With the toggle on, a one-star request on a one-star first image clears a grouped three-star image. With the toggle off, that image gets one star. |
| `Ratings.PopUndo` | src/common/ratings.c:92-104 | Replaying touches only the images named by the records. The touched ids are prepended in reverse record order in front of the list passed in. |
| `Ratings.SameParts` | src/common/ratings.c:80-81 | A flags word is determined by its bits above the reject bit, its reject bit and its star field. |
| `Ratings.RejectTwiceRestores` | src/common/ratings.c:64-71 | Applying REJECT twice gives back exactly the original flags word. |
| `Ratings.StarRoundTrip` | src/common/ratings.c:47-50 | After applying a star rating r in 0..5, the rating read back is r, or 0 if the double-tap rule fired. |
| `Ratings.UndoToggle` | src/common/ratings.c:64-71 | Replaying the rating read before a reject toggle gives back the original flags word exactly. |
| `Ratings.UndoStars` | src/common/ratings.c:80-81 | Replaying the rating read before a star rating restores the rating and the bits above the reject bit. The operation and the undo read the same double-tap preference. |
| `Ratings.UndoFlags` | src/common/ratings.c:127-135 | For every valid request, replaying the old rating after the computed one restores the rating and the bits above the reject bit. The operation and the undo read the same double-tap preference. |
| `Ratings.ApplyListPointwise` | src/common/ratings.c:114-136 | Over distinct images, each image ends with its own flags after the computed rating, independently of the others. |
| `Ratings.PopUndoPointwise` | src/common/ratings.c:96-101 | Over records for distinct images, each image ends with its flags after its own record's replayed value. |
| `Ratings.ApplyListSetsRating` | src/common/ratings.c:114-136 | Every listed image reads back the requested star rating 0..5, or 0 where the double-tap rule fires. |
| `Ratings.MoveFlags` | src/common/ratings.c:128-135 | On one image showing 0..5 stars, upgrade reads back as min(5, old+1) and downgrade as max(0, old-1). |
| `Ratings.UpgradeDowngradeClamp` | src/common/ratings.c:127-135 | Across a list of distinct images, unrejected images move by one star, clamped to 0..5. |
| `Ratings.MoveOnRejectedUnrejects` | src/common/ratings.c:128-129 | Upgrading or downgrading an image whose reject bit is set clears that bit and leaves the stars it had before. It then no longer reads as rejected, unless its star field is 6. |
| `Ratings.MoveOnStarSix` | src/common/ratings.c:47-50 | A word with star field 6 reads as REJECT, so upgrading or downgrading it passes REJECT on. That toggles the reject bit, setting it when it was clear, and the image still reads as REJECT. |
| `Ratings.UndoRestoresRatings` | src/common/ratings.c:118-125 | Over distinct images and a valid request, undo after a rating operation gives every image back its former rating. The double-tap preference at undo time is the same one the operation read. |
| `Ratings.RedoRequestFlags` | src/common/ratings.c:80-81 | Passing UPGRADE or DOWNGRADE itself to the apply step stores star field 7 or 6 (6 reads as REJECT). |
| `Ratings.DowngradeFromSevenRejects` | src/common/ratings.c:127-133 | Downgrading an unrejected word whose star field is 7 (as the redo above leaves it) hands 6 to the apply step, which sets the reject bit. The image then reads as REJECT. |
| `Ratings.RedoReplaysRequest` | src/common/ratings.c:118-125 | With the record as written, undo then redo of an upgrade leaves rating 7, and of a downgrade leaves REJECT. Neither is the rating the operation produced. |
| `Ratings.ApplyListRecordingEffective` | src/common/ratings.c:112-137 | The corrected operation keeps the set of images and makes one record per image, in list order. |
| `Ratings.RecordingEffectiveSameLibrary` | src/common/ratings.c:127-135 | The corrected operation changes the image cache exactly as `_ratings_apply` does. |
| `Ratings.RecordingEffectiveRecords` | src/common/ratings.c:118-133 | Over distinct images and a valid request, each corrected record holds the rating read before and the rating actually handed to the apply step. |
| `Ratings.RedoStars` | src/common/ratings.c:80-81 | For a star rating, redo after undo gives back the flags word the rating produced. The operation, the undo and the redo all read the same double-tap preference. |
| `Ratings.RedoFlags` | src/common/ratings.c:64-81 | For every valid request, redoing the computed rating after undo gives back the flags word exactly. The operation, the undo and the redo all read the same double-tap preference. |
| `Ratings.RedoAtImage` | src/common/ratings.c:96-101 | Over distinct images and a valid request, undo then redo with corrected records gives back each image's flags word. The operation, the undo and the redo all read the same double-tap preference. |
| `Ratings.RedoRestoresApplied` | src/common/ratings.c:92-137 | Over distinct images and a valid request, undo followed by redo with corrected records gives back exactly the image cache the operation produced. The operation, the undo and the redo all read the same double-tap preference. |
| `SmallRaw.StrnEqualFrom` | src/common/imageio_rawspeed.cc:331 | The strncmp walk from i to n succeeds when the two C strings agree at every position up to n. When it fails, they differ at some position in that range. |
| `SmallRaw.StrnEqualFromSlices` | src/common/imageio_rawspeed.cc:331 | The strncmp comparison from position i to n agrees with comparing the slices i..n of two NUL-free strings. |
| `SmallRaw.StrnEqualIsPrefix` | src/common/imageio_rawspeed.cc:331 | strncmp over the pattern's length is zero exactly when the pattern is a prefix of the string. |
| `SmallRaw.RowPadding` | src/common/imageio_rawspeed.cc:331-332 | The row padding is 0 or 72, and 72 only when the vertical subsampling is 2. |
| `SmallRaw.RowPaddingExactly` | src/common/imageio_rawspeed.cc:377-378 | The padding is 72 exactly when the maker-model string starts with "Canon EOS 50D" and the vertical subsampling is 2. |
| `SmallRaw.PaddingMatchesLongerNames` | src/common/imageio_rawspeed.cc:331 | Any model name starting with "Canon EOS 50D" gets the padding, because only 13 characters are compared. |
| `SmallRaw.SourceIndex` | src/common/imageio_rawspeed.cc:354 | The source index of (row, col, k) in the padded buffer is never negative. Its order, bound and injectivity are stated by the three lemmas below. The preview copy reads the same index (line 396). |
| `SmallRaw.SourceIndexOrdered` | src/common/imageio_rawspeed.cc:351-354 | Source indices grow strictly in row, column, sample loop order. |
| `SmallRaw.SourceIndexBound` | src/common/imageio_rawspeed.cc:393-396 | For row < h, col < w and k < 3, the source index lies in 0..h*(w+extra)*3-1. |
| `SmallRaw.SourceIndexInjective` | src/common/imageio_rawspeed.cc:351-354 | Distinct (row, col, k) triples read distinct source samples. |
| `SmallRaw.CopyIndices` | src/common/imageio_rawspeed.cc:349-354 | The loop performs h*w*3 stores. Each one reads inside the padded buffer, the reads are strictly increasing, and no store writes channel 3 of an output pixel. The store for (row, col, k) writes channel k of the pixel `pos(col, row)` from the padded source index. |
| `RawLoad.Take` | src/common/imageio_rawspeed.cc:104 | Acquiring a resource holds it exactly when it was unused, and never counts as a release. |
| `RawLoad.Give` | src/common/imageio_rawspeed.cc:130-131 | Freeing a resource counts as a release exactly when it was held. |
| `RawLoad.SetFlag` | src/common/imageio_rawspeed.cc:127 | Setting a flag makes it present and keeps every other bit. |
| `RawLoad.ClearFlag` | src/common/imageio_rawspeed.cc:126 | Clearing a flag makes it absent and keeps every other bit. |
| `RawLoad.RawFlags` | src/common/imageio_rawspeed.cc:318-319 | The image is marked raw and not LDR. HDR and every other bit are kept. |
| `RawLoad.TransposedIsBit2` | src/common/imageio_rawspeed.cc:149 | The transposed test is bit 2 (`& 4`) of the orientation. |
| `RawLoad.OrientedSize` | src/common/imageio_rawspeed.cc:148-150 | Width and height are the raw dimensions: swapped exactly when `orientation & 4` is set, kept otherwise. |
| `RawLoad.Oriented` | src/common/imageio_rawspeed.cc:264-266 | Only width and height change, and they are the raw dimensions in some order. |
| `RawLoad.Fail` | src/common/imageio_rawspeed.cc:161-182 | A caught exception returns FILE_CORRUPTED. An uncaught one escapes holding everything it held. |
| `RawLoad.OpenSraw` | src/common/imageio_rawspeed.cc:313-403 | The small-raw helpers return CACHE_FULL exactly when the allocation fails and OK otherwise. They mark the image raw and orient it. They copy with the 50D padding and release the image exactly when the allocation succeeds, and convert to a preview only on the preview path. The preview buffer is allocated and freed only then. |
| `RawLoad.Prelude` | src/common/imageio_rawspeed.cc:116-117 | The full loader sets failOnUnknown and then calls checkSupport; the preview loader only calls checkSupport (line 233). |
| `RawLoad.Open` | src/common/imageio_rawspeed.cc:75-311 | No resource is taken twice or freed unheld on any exit. An escaping exception leaves the image untouched and does not release it. `RawLoad.OpenShape`, `RawLoad.OpenOutcome`, `RawLoad.OpenReleases`, `RawLoad.OpenCalls` and `RawLoad.OpenImage` state the rest. |
| `RawLoad.AfterDecode` | src/common/imageio_rawspeed.cc:123-160 | After a complete decoding the code is decided by the allocation alone, in both branches (also lines 239-276). The file map and the decoder are freed, and the preview buffer is taken and freed exactly on a preview whose allocation succeeds (lines 297-310). |
| `RawLoad.StandardFlags` | src/common/imageio_rawspeed.cc:139-145 | With no CFA filter the flags are kept. With one, the image is marked raw and not LDR, and HDR is set when it was set or the data is float. All other bits are kept either way. |
| `RawLoad.Catches` | src/common/imageio_rawspeed.cc:106-182 | The handler table agrees with the handlers the loaders install: the decoding try block's at the decode site, where the `RawDecoderException` handler also takes the derived FileIOException; the outer ones at the camera-database and parse sites; and those plus FileIOException at the file read. |
| `RawLoad.FateOf` | src/common/imageio_rawspeed.cc:106-160 | Decoding completes exactly when every RawSpeed step passes and a decoder is found (the camera-database step only matters when not yet loaded). A decoder exists only after the file is read and parsed. |
| `RawLoad.OpenShape` | src/common/imageio_rawspeed.cc:102-188 | An exception goes to the handlers of its raise site, with what that site holds. A missing decoder returns FILE_CORRUPTED and keeps the file map. A complete decoding runs the decoder calls and then the branch after decoding. |
| `RawLoad.OpenOutcome` | src/common/imageio_rawspeed.cc:102-188 | OK exactly when decoding completes and the allocation succeeds. CACHE_FULL exactly when it completes and the allocation fails. FILE_CORRUPTED exactly for a missing decoder or an exception a handler at its raise site catches. Otherwise that exception escapes. |
| `RawLoad.OpenReleases` | src/common/imageio_rawspeed.cc:104-133 | Nothing is freed twice or freed unheld. Every return after the decoder exists, and every failure before the map exists, leaves nothing held. The null-decoder return keeps the file map. An escaping exception frees nothing. The preview buffer is used exactly on a successful preview. |
| `RawLoad.TruncatedFileCorrupted` | src/common/imageio_rawspeed.cc:161-167 | A FileIOException raised while decoding is caught by the `RawDecoderException` handler: the loader returns FILE_CORRUPTED, holds nothing and leaves the image untouched. |
| `RawLoad.OpenCalls` | src/common/imageio_rawspeed.cc:116-117 | failOnUnknown is set only by the full loader, right before checkSupport. checkSupport runs exactly when a decoder exists. The image is released for writing exactly on OK. |
| `RawLoad.AfterDecodeCalls` | src/common/imageio_rawspeed.cc:233 | The part after decoding neither sets failOnUnknown nor calls checkSupport, and it releases the image exactly when its allocation succeeds. |
| `RawLoad.AfterDecodeBranch` | src/common/imageio_rawspeed.cc:240-249 | With a successful allocation, the small-raw copy with its padding runs exactly in the small-raw branch, and the buffer flip exactly otherwise. The preview conversion runs exactly on the preview path. |
| `RawLoad.OpenBranch` | src/common/imageio_rawspeed.cc:124-133 | After a complete decoding, the small-raw copy runs exactly when either axis is subsampled and the buffer flip runs exactly otherwise. The preview conversion runs exactly on the preview path. |
| `RawLoad.RawFlagsFixed` | src/common/imageio_rawspeed.cc:298-302 | Re-marking an image already marked raw and not LDR changes nothing. |
| `RawLoad.OpenImage` | src/common/imageio_rawspeed.cc:139-145 | The image is untouched unless decoding completes. Then it is oriented and only LDR, RAW and HDR can change. The small-raw branch marks it raw with no filter. The standard branch takes the raw's bpp and filter and marks it raw (and HDR for float data) exactly when the filter is non-zero. |
| `RawLoad.PreviewMatchesFull` | src/common/imageio_rawspeed.cc:255-261 | When checkSupport behaves alike with and without failOnUnknown, the preview loader returns the same code and leaves the image exactly as the full loader does. |
| `RawLoad.AfterDecodePathAlike` | src/common/imageio_rawspeed.cc:297-302 | After a complete decoding, both loaders return the same code and leave the same image. |
| `RawLoad.SrawPadding` | src/common/imageio_rawspeed.cc:329-332 | The small-raw copy uses padding 72 exactly for a "Canon EOS 50D" maker-model prefix with vertical subsampling 2, and padding 0 otherwise. |

## Left out

- RawSpeed itself is not part of this model: `FileReader`, `TiffParser`, `RawDecoder`, `CameraMetaData` and the CFA. Each step is an abstract outcome, and the decoded image is a record of the fields the loader reads. The exception hierarchy is flattened into the named classes plus "other", each value being the most derived class of the thrown object. The model takes RawSpeed's FileIOException to derive from RawDecoderException, so a FileIOException raised while decoding (a truncated file) is caught by the `RawDecoderException` handlers (imageio_rawspeed.cc:161, 277) and returns FILE_CORRUPTED after freeing the decoder and the file map. No other two named classes are related. RawSpeed's class declarations are not part of this model.
- Some RawSpeed calls after decoding are assumed not to throw, since their behaviour lies in RawSpeed:
  - `scaleBlackWhite` (imageio_rawspeed.cc:137, 253);
  - `getDataType()` (imageio_rawspeed.cc:137, 144);
  - `cfa.getDcrawFilter()` (imageio_rawspeed.cc:139, 255);
  - `getData()` and `getBpp()` (imageio_rawspeed.cc:158-159, 275, 342, 389).

  If one of them did throw after an allocation, the image buffer or the preview buffer would stay held. `RawLoad.OpenReleases` rests on this assumption.
- `dt_imageio_flip_buffers` and `dt_imageio_write_pos` are not part of this model. The copy loop's output pixel position is the parameter `pos`, so nothing is claimed about the orientation mapping.
- The float scaling `1.0 / (white - black)` of the small-raw loops is floating-point work and is not modelled. It divides by zero when white equals black, and it does not subtract black.
- The lazy construction of the camera database under a mutex is concurrency. It is an outcome `metaLoad` that only matters when the database is not yet loaded. An exception thrown while the mutex is held would leave it locked; that is not modelled.
- EXIF reading, `dt_colorspaces_get_makermodel` (the maker-model string is an input), image-cache locking, `dt_image_alloc`, `dt_alloc_align` (each is a boolean "allocation succeeded"), `dt_image_check_buffer` and `dt_image_raw_to_preview` are I/O and buffer management outside this model. Only the presence of the last call is traced.
- `RawLoad.Oriented` and `RawLoad.OpenImage` take the orientation as an input: the value `dt_image_orientation` returns (imageio_rawspeed.cc:148, 264, 321, 367). That helper, with its user override and its handling of an unset orientation, is not part of this model. For a negative input the model tests bit 2 of its two's-complement form, so an unset value of -1 would swap width and height if passed through unmapped.
- `SmallRaw.CopyIndices` takes width and height as naturals. A negative raw dimension would make the source loop run zero times, which the model does not cover. Its indices are unbounded integers, while the source computes them in C `int` (imageio_rawspeed.cc:354, 396). They agree only while height * (width + extra) * 3 stays below 2^31; a larger image, as read from a crafted file, overflows in the source and is not modelled.
- `SmallRaw.SourceIndexBound` holds for the C `int` index only while height * (width + extra) * 3 stays below 2^31, for the reason given for `SmallRaw.CopyIndices`.
- `SmallRaw.SourceIndexOrdered` holds for the C `int` index only while the indices stay below 2^31, for the reason given for `SmallRaw.CopyIndices`.
- `SmallRaw.SourceIndexInjective` holds for the C `int` index only while the indices stay below 2^31, for the reason given for `SmallRaw.CopyIndices`.
- In ratings.c, the following are not modelled: GList memory management, undo-framework registration and grouping, toasts and logging, and `dt_collection_hint_message`. `dt_conf_get_bool("rating_one_double_tap")` is the boolean parameter `oneDoubleTap`, read the same throughout one operation. `dt_grouping_add_grouped_images` is the parameter `grouped`.
- `_action_process_rating` and the shortcut/action tables of ratings.c are GUI glue returning float pattern values. They are not modelled.
- `Ratings.UndoRestoresRatings`, `Ratings.ApplyListSetsRating`, `Ratings.ApplyOnListSetsRating`, `Ratings.ApplyOnListUndoRestores`, `Ratings.ApplyOnImageRatings`, `Ratings.ApplyOnImageUndoRestores`, `Ratings.UpgradeDowngradeClamp`, `Ratings.MoveOnRejectedUnrejects`, `Ratings.RecordingEffectiveRecords`, `Ratings.RedoAtImage` and `Ratings.RedoRestoresApplied` require the list to hold distinct images. The source accepts repeats, and the list-level `ensures` of `Ratings.ApplyList` do not describe the final flags of a repeated image beyond its key being kept.
- `Ratings.UndoRestoresRatings` (and `Ratings.ApplyOnListUndoRestores`, `Ratings.ApplyOnImageUndoRestores`) reads the double-tap preference at undo time with the same value the operation read. The source reads `rating_one_double_tap` afresh on every apply (ratings.c:74). If the preference is switched between the two, the undo of a kept one-star image can clear it. That case is not covered.
- `Ratings.UndoStars` assumes the operation and the undo read the same double-tap preference. With the preference on for the rating and off for the undo, a one-star image stays at one star and the undo of one star clears it to 0.
- `Ratings.UndoFlags` assumes the operation and the undo read the same double-tap preference, for the same reason as `Ratings.UndoStars`.
- `Ratings.RedoStars` assumes the operation, the undo and the redo read the same double-tap preference. A one-star request on a one-star image with the preference off stores 0; a redo with it on stores 1.
- `Ratings.RedoFlags` assumes the operation, the undo and the redo read the same double-tap preference, for the same reason as `Ratings.RedoStars`.
- `Ratings.RedoAtImage` assumes the operation, the undo and the redo read the same double-tap preference, for the same reason as `Ratings.RedoStars`.
- `Ratings.RedoRestoresApplied` assumes the operation, the undo and the redo read the same double-tap preference, for the same reason as `Ratings.RedoStars`.

## Findings

| source | as written | input that shows it | evidently intended | confidence | as-written member | corrected member |
|---|---|---|---|---|---|---|
| src/common/ratings.c:123 | The undo record's after value is the requested rating. `_pop_undo` (line 99) hands it to `_ratings_apply_to_image`, which does not interpret UPGRADE (-1) or DOWNGRADE (-2) and stores their low three bits (lines 80-81). | Upgrade an unrejected 2-star image, undo, then redo: the image ends with star field 7 instead of 3 stars. Redoing a downgrade ends with star field 6, which reads as REJECT. | Record the rating actually applied (line 127-133's result), so that redo repeats the change. | not executed | `Ratings.RedoReplaysRequest`; `Ratings.DowngradeFromSevenRejects` shows that a later downgrade of the left star field 7 rejects the image | `Ratings.ApplyListRecordingEffective`, with `Ratings.RedoRestoresApplied` |

=== FILE: ratings.dfy ===
/** Star ratings of darktable images (src/common/ratings.c).

    A rating lives in the flags word of an image: a reject bit and a
    three-bit star field. The image cache is reduced to a map from image id
    to flags word, the "rating_one_double_tap" preference to a boolean
    parameter and the undo framework to the list of records it is handed.
 */
module Ratings {

  /** The `flags` word of a dt_image_t, a C int. Its bits are read through
      Euclidean division by powers of two, which on a two's-complement int
      selects exactly the bits `&` would. */
  type Flags = int

  type ImageId = int

  /** The image cache as far as ratings are concerned. An id that is not a key
      is one for which the cache hands back no image. */
  type Library = map<ImageId, Flags>

  // Rating values of views/view.h (DT_VIEW_DESERT, DT_VIEW_STAR_1..5, DT_VIEW_REJECT).
  const DESERT: int := 0
  const STAR_1: int := 1
  const STAR_5: int := 5
  const REJECT: int := 6

  // DT_VIEW_RATINGS_MASK and DT_IMAGE_REJECTED (common/image.h).
  const RATINGS_MASK: int := 7
  const IMAGE_REJECTED: int := 8

  // Pseudo ratings asking for one star more or less (ratings.c:31-32).
  const UPGRADE: int := -1
  const DOWNGRADE: int := -2

  /** The requests the rating actions issue: a rating 0..6, upgrade or downgrade. */
  predicate ValidRequest(rating: int) {
    DOWNGRADE <= rating <= REJECT
  }

  /** The reject bit (bit 3, DT_IMAGE_REJECTED) of a flags word is set. */
  predicate Rejected(f: Flags) {
    (f / 8) % 2 == 1
  }

  /** The star field: the low three bits (DT_VIEW_RATINGS_MASK) of r. */
  function Stars(r: int): (s: int)
    ensures 0 <= s < 8
  {
    r % 8
  }

  /** The bits of a flags word above the reject bit and the star field,
      shifted down by four. */
  function Others(f: Flags): int {
    f / 16
  }

  /** A flags word is its other bits, its reject bit and its star field. */
  lemma FlagsDecompose(f: Flags)
    ensures f == Others(f) * 16 + (if Rejected(f) then 8 else 0) + Stars(f)
  {
  }

  /** The parts of a flags word built from other bits, a reject bit and a star field. */
  lemma ComposeParts(others: int, rejected: bool, stars: int)
    requires 0 <= stars < 8
    ensures var f := others * 16 + (if rejected then 8 else 0) + stars;
            Others(f) == others && Rejected(f) == rejected && Stars(f) == stars
  {
  }

  /** The rating of a word built from other bits, a reject bit and a star
      field: REJECT when the bit is set, whatever the stars, and otherwise the
      star field, so star field 6 without the bit also reads as REJECT. */
  lemma RatingOfParts(others: int, rejected: bool, stars: int)
    requires 0 <= stars < 8
    ensures RatingOf(others * 16 + (if rejected then 8 else 0) + stars) == (if rejected then REJECT else stars)
  {
    ComposeParts(others, rejected, stars);
  }

  /** The rating dt_ratings_get reads from the flags word of an image. */
  function RatingOf(f: Flags): (r: int)
    ensures 0 <= r <= 7
    ensures Rejected(f) ==> r == REJECT
    ensures !Rejected(f) ==> r == Stars(f)
  {
    if Rejected(f) then REJECT else Stars(f)
  }

  /** dt_ratings_get: an image the cache does not hold has rating 0. */
  function Get(lib: Library, id: ImageId): (r: int)
    ensures 0 <= r <= 7
    ensures id !in lib ==> r == DESERT
    ensures id in lib ==> r == RatingOf(lib[id])
  {
    if id in lib then RatingOf(lib[id]) else DESERT
  }

  /** The "second one star clears the rating" rule: unless the
      rating_one_double_tap preference is set, asking a one-star image for
      one star asks for no star. */
  predicate DoubleTap(oneDoubleTap: bool, previous: int, requested: int) {
    !oneDoubleTap && previous == STAR_1 && requested == STAR_1
  }

  /** The rating the apply step stores for a request other than REJECT. */
  function Stored(f: Flags, rating: int, oneDoubleTap: bool): (r: int)
    ensures r == rating || r == DESERT
    ensures r != rating <==> !oneDoubleTap && RatingOf(f) == STAR_1 && rating == STAR_1
  {
    if DoubleTap(oneDoubleTap, RatingOf(f), rating) then DESERT else rating
  }

  /** _ratings_apply_to_image on the flags word of an image the cache holds.
      Asking for REJECT toggles the reject bit and keeps everything else;
      anything else clears the reject bit, replaces the star field by the
      low three bits of the (possibly double-tapped) rating and keeps the
      bits above. */
  function ApplyToFlags(f: Flags, rating: int, oneDoubleTap: bool): (g: Flags)
    ensures Others(g) == Others(f)
    ensures rating == REJECT ==> Rejected(g) == !Rejected(f) && Stars(g) == Stars(f)
    ensures rating != REJECT ==> !Rejected(g) && Stars(g) == Stars(Stored(f, rating, oneDoubleTap))
  {
    FlagsDecompose(f);
    if rating == REJECT then
      ComposeParts(Others(f), !Rejected(f), Stars(f));
      if Rejected(f) then f - 8 else f + 8
    else
      ComposeParts(Others(f), false, Stars(Stored(f, rating, oneDoubleTap)));
      Others(f) * 16 + Stars(Stored(f, rating, oneDoubleTap))
  }

  /** _ratings_apply_to_image: images the cache does not hold are skipped. */
  function ApplyToImage(lib: Library, id: ImageId, rating: int, oneDoubleTap: bool): (lib': Library)
    ensures lib'.Keys == lib.Keys
    ensures forall other :: other in lib && other != id ==> lib'[other] == lib[other]
    ensures id in lib ==> lib'[id] == ApplyToFlags(lib[id], rating, oneDoubleTap)
  {
    if id in lib then lib[id := ApplyToFlags(lib[id], rating, oneDoubleTap)] else lib
  }

  /** The rating _ratings_apply hands on for one image (ratings.c:127-133):
      upgrade and downgrade move one star within 0..5, and a rejected image
      asked to move passes REJECT on, which the apply step treats as a toggle. */
  function EffectiveRating(prior: int, rating: int): (r: int)
    ensures rating >= DESERT ==> r == rating
    ensures prior == REJECT && rating < DESERT ==> r == REJECT
    ensures 0 <= prior <= 7 && ValidRequest(rating) ==> 0 <= r <= REJECT
    ensures 0 <= prior <= STAR_5 && rating == UPGRADE ==> r == (if prior == STAR_5 then STAR_5 else prior + 1)
    ensures 0 <= prior <= STAR_5 && rating == DOWNGRADE ==> r == (if prior == DESERT then DESERT else prior - 1)
  {
    if prior == REJECT && rating < DESERT then REJECT
    else if rating == UPGRADE then (if STAR_5 < prior + 1 then STAR_5 else prior + 1)
    else if rating == DOWNGRADE then (if DESERT > prior - 1 then DESERT else prior - 1)
    else rating
  }

  /** A dt_undo_ratings_t entry. */
  datatype UndoRecord = UndoRecord(imgid: ImageId, before: int, after: int)

  /** The image ids of a list of undo records, in list order. */
  function Ids(records: seq<UndoRecord>): (ids: seq<ImageId>)
    ensures |ids| == |records|
    ensures forall i :: 0 <= i < |records| ==> ids[i] == records[i].imgid
  {
    if records == [] then [] else [records[0].imgid] + Ids(records[1..])
  }

  /** The image cache after an operation, and the undo records it produced. */
  datatype Applied = Applied(lib: Library, undo: seq<UndoRecord>)

  predicate Distinct(ids: seq<ImageId>) {
    forall i, j :: 0 <= i < j < |ids| ==> ids[i] != ids[j]
  }

  /** Prepending the record for the head of a list to records for its tail
      gives records for the whole list. */
  lemma RecordsStep(imgs: seq<ImageId>, rec: UndoRecord, rest: seq<UndoRecord>)
    requires |imgs| > 0 && rec.imgid == imgs[0] && Ids(rest) == imgs[1..]
    ensures Ids([rec] + rest) == imgs && ([rec] + rest)[1..] == rest
  {
    assert ([rec] + rest)[1..] == rest;
  }

  /** The tail of a list of distinct images is distinct and misses the head. */
  lemma DistinctTail(imgs: seq<ImageId>)
    requires |imgs| > 0
    ensures forall i :: 1 <= i < |imgs| ==> imgs[1..][i - 1] == imgs[i]
    ensures forall x :: x in imgs <==> x == imgs[0] || x in imgs[1..]
    ensures Distinct(imgs) ==> Distinct(imgs[1..]) && forall i :: 1 <= i < |imgs| ==> imgs[i] != imgs[0]
  {
  }

  /** _ratings_apply: rate the images in list order, appending one undo record
      per image when undo is on. The record keeps the rating read before the
      change and the rating that was *requested*, not the one computed. */
  function ApplyList(lib: Library, imgs: seq<ImageId>, rating: int, oneDoubleTap: bool, undoOn: bool): (a: Applied)
    ensures a.lib.Keys == lib.Keys
    ensures forall id :: id in lib && id !in imgs ==> a.lib[id] == lib[id]
    ensures !undoOn ==> a.undo == []
    ensures undoOn ==> |a.undo| == |imgs|
    ensures undoOn ==> Ids(a.undo) == imgs
    ensures undoOn ==> forall i :: 0 <= i < |imgs| ==> a.undo[i].after == rating
    decreases |imgs|
  {
    if |imgs| == 0 then Applied(lib, [])
    else
      var id := imgs[0];
      var prior := Get(lib, id);
      var lib1 := ApplyToImage(lib, id, EffectiveRating(prior, rating), oneDoubleTap);
      var rest := ApplyList(lib1, imgs[1..], rating, oneDoubleTap, undoOn);
      DistinctTail(imgs);
      if undoOn then
        RecordsStep(imgs, UndoRecord(id, prior, rating), rest.undo);
        Applied(rest.lib, [UndoRecord(id, prior, rating)] + rest.undo)
      else Applied(rest.lib, rest.undo)
  }

  /** Over distinct images, each undo record of _ratings_apply keeps the
      rating its image had before the operation. */
  lemma {:induction false} ApplyListRecordsBefore(lib: Library, imgs: seq<ImageId>, rating: int, oneDoubleTap: bool)
    requires Distinct(imgs)
    ensures var a := ApplyList(lib, imgs, rating, oneDoubleTap, true);
            forall i :: 0 <= i < |imgs| ==> a.undo[i].before == Get(lib, imgs[i])
    decreases |imgs|
  {
    if |imgs| > 0 {
      var id := imgs[0];
      var lib1 := ApplyToImage(lib, id, EffectiveRating(Get(lib, id), rating), oneDoubleTap);
      DistinctTail(imgs);
      ApplyListRecordsBefore(lib1, imgs[1..], rating, oneDoubleTap);
      var a := ApplyList(lib, imgs, rating, oneDoubleTap, true);
      var rest := ApplyList(lib1, imgs[1..], rating, oneDoubleTap, true);
      forall i | 0 <= i < |imgs|
        ensures a.undo[i].before == Get(lib, imgs[i])
      {
        if i > 0 {
          assert a.undo[i] == rest.undo[i - 1];
          GetOther(lib, id, EffectiveRating(Get(lib, id), rating), oneDoubleTap, imgs[i]);
        }
      }
    }
  }

  /** Rating one image leaves the rating read for any other unchanged. */
  lemma GetOther(lib: Library, id: ImageId, rating: int, oneDoubleTap: bool, other: ImageId)
    requires other != id
    ensures Get(ApplyToImage(lib, id, rating, oneDoubleTap), other) == Get(lib, other)
  {
  }

  /** dt_ratings_apply_on_list: an empty list changes nothing. */
  function ApplyOnList(lib: Library, imgs: seq<ImageId>, rating: int, oneDoubleTap: bool, undoOn: bool): (a: Applied)
    ensures imgs == [] ==> a == Applied(lib, [])
    ensures imgs != [] ==> a == ApplyList(lib, imgs, rating, oneDoubleTap, undoOn)
    ensures a.lib.Keys == lib.Keys
    ensures forall id :: id in lib && id !in imgs ==> a.lib[id] == lib[id]
  {
    if imgs == [] then Applied(lib, []) else ApplyList(lib, imgs, rating, oneDoubleTap, undoOn)
  }

  /** dt_ratings_apply_on_image. A non-positive id selects nothing. With
      toggle_on the double-tap rule is decided once, on the first image, and
      the resulting rating is asked of every image. `grouped` is the list
      dt_grouping_add_grouped_images makes of the single image when grouping
      is on. */
  function ApplyOnImage(lib: Library, imgid: ImageId, rating: int, toggleOn: bool, undoOn: bool,
                        groupOn: bool, grouped: seq<ImageId>, oneDoubleTap: bool): (a: Applied)
    ensures imgid <= 0 ==> a == Applied(lib, [])
    ensures a.lib.Keys == lib.Keys
    ensures imgid > 0 && !groupOn ==> forall id :: id in lib && id != imgid ==> a.lib[id] == lib[id]
    ensures imgid > 0 && groupOn ==> forall id :: id in lib && id !in grouped ==> a.lib[id] == lib[id]
    ensures imgid > 0 && !undoOn ==> a.undo == []
    ensures imgid > 0 && undoOn ==> |a.undo| == (if groupOn then |grouped| else 1)
    ensures imgid > 0 && undoOn ==> Ids(a.undo) == (if groupOn then grouped else [imgid])
    ensures imgid > 0 && undoOn && toggleOn && DoubleTap(oneDoubleTap, Get(lib, imgid), rating) ==>
      forall i :: 0 <= i < |a.undo| ==> a.undo[i].after == DESERT
    ensures imgid > 0 && undoOn && !(toggleOn && DoubleTap(oneDoubleTap, Get(lib, imgid), rating)) ==>
      forall i :: 0 <= i < |a.undo| ==> a.undo[i].after == rating
  {
    if imgid <= 0 then Applied(lib, [])
    else
      var previous := Get(lib, imgid);
      var newRating := if toggleOn && DoubleTap(oneDoubleTap, previous, rating) then DESERT else rating;
      var imgs := if groupOn then grouped else [imgid];
      ApplyList(lib, imgs, newRating, oneDoubleTap, undoOn)
  }

  datatype UndoAction = Undo | Redo

  /** The image cache after replaying undo records, and the list of touched ids. */
  datatype Popped = Popped(lib: Library, imgs: seq<ImageId>)

  function Replayed(rec: UndoRecord, action: UndoAction): int {
    if action == Undo then rec.before else rec.after
  }

  /** _pop_undo: replay each record's before (undo) or after (redo) value in
      list order, prepending each id to the touched list. */
  function PopUndo(lib: Library, records: seq<UndoRecord>, action: UndoAction, oneDoubleTap: bool,
                   imgs: seq<ImageId>): (p: Popped)
    ensures p.lib.Keys == lib.Keys
    ensures |p.imgs| == |records| + |imgs|
    ensures p.imgs[|records|..] == imgs
    ensures forall i :: 0 <= i < |records| ==> p.imgs[i] == records[|records| - 1 - i].imgid
    ensures forall id :: id in lib && id !in Ids(records) ==> p.lib[id] == lib[id]
    decreases |records|
  {
    if |records| == 0 then Popped(lib, imgs)
    else
      var rec := records[0];
      var lib1 := ApplyToImage(lib, rec.imgid, Replayed(rec, action), oneDoubleTap);
      var p := PopUndo(lib1, records[1..], action, oneDoubleTap, [rec.imgid] + imgs);
      assert forall j :: 0 <= j < |records| - 1 ==> records[1..][j] == records[j + 1];
      p
  }

  /* ---------- properties of one flags word ---------- */

  /** Two flags words agreeing on the other bits, the reject bit and the
      star field are the same word. */
  lemma SameParts(f: Flags, g: Flags)
    requires Others(f) == Others(g) && Rejected(f) == Rejected(g) && Stars(f) == Stars(g)
    ensures f == g
  {
    FlagsDecompose(f);
    FlagsDecompose(g);
  }

  /** Reject is a toggle: asking for it twice restores the flags exactly. */
  lemma RejectTwiceRestores(f: Flags, c1: bool, c2: bool)
    ensures ApplyToFlags(ApplyToFlags(f, REJECT, c1), REJECT, c2) == f
  {
    SameParts(ApplyToFlags(ApplyToFlags(f, REJECT, c1), REJECT, c2), f);
  }

  /** Storing a star rating reads back as that rating unless the double-tap
      rule fires, in which case it reads back as no star. */
  lemma StarRoundTrip(f: Flags, r: int, oneDoubleTap: bool)
    requires DESERT <= r <= STAR_5
    ensures RatingOf(ApplyToFlags(f, r, oneDoubleTap)) ==
      (if DoubleTap(oneDoubleTap, RatingOf(f), r) then DESERT else r)
  {
  }

  /** Undo of a reject toggle: replaying the rating read before toggles back,
      or stores the stars the image showed. */
  lemma UndoToggle(f: Flags, oneDoubleTap: bool)
    ensures var g := ApplyToFlags(f, REJECT, oneDoubleTap);
            ApplyToFlags(g, RatingOf(f), oneDoubleTap) == f
  {
    var g := ApplyToFlags(f, REJECT, oneDoubleTap);
    SameParts(ApplyToFlags(g, RatingOf(f), oneDoubleTap), f);
  }

  /** Undo of a star rating 0..5: replaying the rating read before restores
      that rating and every bit outside the reject bit and star field. */
  lemma UndoStars(f: Flags, e: int, oneDoubleTap: bool)
    requires DESERT <= e <= STAR_5
    ensures var g := ApplyToFlags(f, e, oneDoubleTap);
            var h := ApplyToFlags(g, RatingOf(f), oneDoubleTap);
            RatingOf(h) == RatingOf(f) && Others(h) == Others(f)
  {
  }

  /** Applying a rating computed from a valid request and then replaying the
      rating read before (what undo does) restores the rating read, and the
      bits outside the reject bit and star field. */
  lemma UndoFlags(f: Flags, rating: int, oneDoubleTap: bool)
    requires ValidRequest(rating)
    ensures var g := ApplyToFlags(f, EffectiveRating(RatingOf(f), rating), oneDoubleTap);
            var h := ApplyToFlags(g, RatingOf(f), oneDoubleTap);
            RatingOf(h) == RatingOf(f) && Others(h) == Others(f)
  {
    var e := EffectiveRating(RatingOf(f), rating);
    if e == REJECT {
      UndoToggle(f, oneDoubleTap);
    } else {
      UndoStars(f, e, oneDoubleTap);
    }
  }

  /* ---------- properties of a whole operation over a list of distinct images ---------- */

  /** Over distinct images, _ratings_apply changes each image independently. */
  lemma {:induction false} ApplyListPointwise(lib: Library, imgs: seq<ImageId>, rating: int, oneDoubleTap: bool,
                                             undoOn: bool)
    requires Distinct(imgs)
    ensures var a := ApplyList(lib, imgs, rating, oneDoubleTap, undoOn);
            forall id :: id in lib && id in imgs ==>
              a.lib[id] == ApplyToFlags(lib[id], EffectiveRating(RatingOf(lib[id]), rating), oneDoubleTap)
    decreases |imgs|
  {
    if |imgs| > 0 {
      var id := imgs[0];
      var lib1 := ApplyToImage(lib, id, EffectiveRating(Get(lib, id), rating), oneDoubleTap);
      assert Distinct(imgs[1..]);
      ApplyListPointwise(lib1, imgs[1..], rating, oneDoubleTap, undoOn);
      assert id !in imgs[1..];
    }
  }

  /** Over records for distinct images, _pop_undo changes each image independently. */
  lemma {:induction false} PopUndoPointwise(lib: Library, records: seq<UndoRecord>, action: UndoAction,
                                           oneDoubleTap: bool, imgs: seq<ImageId>)
    requires Distinct(Ids(records))
    ensures var p := PopUndo(lib, records, action, oneDoubleTap, imgs);
            forall i :: 0 <= i < |records| && records[i].imgid in lib ==>
              p.lib[records[i].imgid] == ApplyToFlags(lib[records[i].imgid], Replayed(records[i], action), oneDoubleTap)
    decreases |records|
  {
    if |records| > 0 {
      var rec := records[0];
      var lib1 := ApplyToImage(lib, rec.imgid, Replayed(rec, action), oneDoubleTap);
      var rest := records[1..];
      PopUndoPointwise(lib1, rest, action, oneDoubleTap, [rec.imgid] + imgs);
      var p := PopUndo(lib, records, action, oneDoubleTap, imgs);
      forall i | 0 <= i < |records| && records[i].imgid in lib
        ensures p.lib[records[i].imgid] == ApplyToFlags(lib[records[i].imgid], Replayed(records[i], action), oneDoubleTap)
      {
        if i == 0 {
          assert forall j :: 0 <= j < |rest| ==> rest[j].imgid != rec.imgid;
        } else {
          assert rest[i - 1] == records[i];
        }
      }
    }
  }

  /** Round trip: asking every image of a list for a star rating 0..5 leaves
      each with that rating, unless the double-tap rule fires on it. */
  lemma ApplyListSetsRating(lib: Library, imgs: seq<ImageId>, r: int, oneDoubleTap: bool, undoOn: bool)
    requires Distinct(imgs)
    requires DESERT <= r <= STAR_5
    ensures var a := ApplyList(lib, imgs, r, oneDoubleTap, undoOn);
            forall id :: id in lib && id in imgs ==>
              Get(a.lib, id) == (if DoubleTap(oneDoubleTap, Get(lib, id), r) then DESERT else r)
  {
    var a := ApplyList(lib, imgs, r, oneDoubleTap, undoOn);
    ApplyListPointwise(lib, imgs, r, oneDoubleTap, undoOn);
    forall id | id in lib && id in imgs
      ensures Get(a.lib, id) == (if DoubleTap(oneDoubleTap, Get(lib, id), r) then DESERT else r)
    {
      assert a.lib[id] == ApplyToFlags(lib[id], r, oneDoubleTap);
      StarRoundTrip(lib[id], r, oneDoubleTap);
    }
  }

  /** One star more or less on an image showing 0..5 stars, clamped to 0..5. */
  lemma MoveFlags(f: Flags, rating: int, oneDoubleTap: bool)
    requires rating == UPGRADE || rating == DOWNGRADE
    requires RatingOf(f) <= STAR_5
    ensures RatingOf(ApplyToFlags(f, EffectiveRating(RatingOf(f), rating), oneDoubleTap)) ==
      (if rating == UPGRADE then (if RatingOf(f) == STAR_5 then STAR_5 else RatingOf(f) + 1)
       else (if RatingOf(f) == DESERT then DESERT else RatingOf(f) - 1))
  {
  }

  /** Upgrade and downgrade move an unrejected image with 0..5 stars by one
      star, clamped to 0..5. */
  lemma UpgradeDowngradeClamp(lib: Library, imgs: seq<ImageId>, rating: int, oneDoubleTap: bool, undoOn: bool)
    requires Distinct(imgs)
    requires rating == UPGRADE || rating == DOWNGRADE
    ensures var a := ApplyList(lib, imgs, rating, oneDoubleTap, undoOn);
            forall id :: id in lib && id in imgs && Get(lib, id) <= STAR_5 ==>
              Get(a.lib, id) == (if rating == UPGRADE then (if Get(lib, id) == STAR_5 then STAR_5 else Get(lib, id) + 1)
                                 else (if Get(lib, id) == DESERT then DESERT else Get(lib, id) - 1))
  {
    ApplyListPointwise(lib, imgs, rating, oneDoubleTap, undoOn);
    forall id | id in lib && id in imgs && Get(lib, id) <= STAR_5 {
      MoveFlags(lib[id], rating, oneDoubleTap);
    }
  }

  /** Upgrading or downgrading an image whose reject bit is set: the REJECT
      passed on toggles the reject bit off, and the image shows the stars it
      had before it was rejected. It no longer reads as rejected unless its
      star field is 6 (see MoveOnStarSix). */
  lemma MoveOnRejectedUnrejects(lib: Library, imgs: seq<ImageId>, rating: int, oneDoubleTap: bool, undoOn: bool)
    requires Distinct(imgs)
    requires rating < DESERT
    ensures var a := ApplyList(lib, imgs, rating, oneDoubleTap, undoOn);
            forall id :: id in lib && id in imgs && Rejected(lib[id]) ==>
              a.lib[id] == lib[id] - 8 && Get(a.lib, id) == Stars(lib[id])
  {
    ApplyListPointwise(lib, imgs, rating, oneDoubleTap, undoOn);
  }

  /** Undo after _ratings_apply restores the rating of every image, provided
      the images are distinct, the request is one the actions issue and the
      double-tap preference has not changed in between. */
  lemma UndoRestoresRatings(lib: Library, imgs: seq<ImageId>, rating: int, oneDoubleTap: bool, touched: seq<ImageId>)
    requires Distinct(imgs)
    requires ValidRequest(rating)
    ensures var a := ApplyList(lib, imgs, rating, oneDoubleTap, true);
            var u := PopUndo(a.lib, a.undo, Undo, oneDoubleTap, touched);
            u.lib.Keys == lib.Keys && forall id :: Get(u.lib, id) == Get(lib, id)
  {
    var a := ApplyList(lib, imgs, rating, oneDoubleTap, true);
    ApplyListPointwise(lib, imgs, rating, oneDoubleTap, true);
    ApplyListRecordsBefore(lib, imgs, rating, oneDoubleTap);
    PopUndoPointwise(a.lib, a.undo, Undo, oneDoubleTap, touched);
    var u := PopUndo(a.lib, a.undo, Undo, oneDoubleTap, touched);
    forall id | id in lib
      ensures Get(u.lib, id) == Get(lib, id)
    {
      if id in imgs {
        var i :| 0 <= i < |imgs| && imgs[i] == id;
        var rec := a.undo[i];
        assert rec.imgid == id && rec.before == Get(lib, id);
        assert a.lib[id] == ApplyToFlags(lib[id], EffectiveRating(RatingOf(lib[id]), rating), oneDoubleTap);
        assert u.lib[id] == ApplyToFlags(a.lib[id], rec.before, oneDoubleTap);
        UndoFlags(lib[id], rating, oneDoubleTap);
      } else {
        assert id !in Ids(a.undo);
      }
    }
  }

  /** dt_ratings_apply_on_list leaves every listed image with the requested
      star rating 0..5, or 0 where the double-tap rule fires. */
  lemma ApplyOnListSetsRating(lib: Library, imgs: seq<ImageId>, r: int, oneDoubleTap: bool, undoOn: bool)
    requires Distinct(imgs)
    requires DESERT <= r <= STAR_5
    ensures var a := ApplyOnList(lib, imgs, r, oneDoubleTap, undoOn);
            forall id :: id in lib && id in imgs ==>
              Get(a.lib, id) == (if DoubleTap(oneDoubleTap, Get(lib, id), r) then DESERT else r)
  {
    if imgs != [] {
      ApplyListSetsRating(lib, imgs, r, oneDoubleTap, undoOn);
    }
  }

  /** Undo of dt_ratings_apply_on_list restores every rating, under the
      conditions of UndoRestoresRatings; an empty list records nothing and
      its undo changes nothing. */
  lemma ApplyOnListUndoRestores(lib: Library, imgs: seq<ImageId>, rating: int, oneDoubleTap: bool,
                                touched: seq<ImageId>)
    requires Distinct(imgs)
    requires ValidRequest(rating)
    ensures var a := ApplyOnList(lib, imgs, rating, oneDoubleTap, true);
            var u := PopUndo(a.lib, a.undo, Undo, oneDoubleTap, touched);
            u.lib.Keys == lib.Keys && forall id :: Get(u.lib, id) == Get(lib, id)
  {
    if imgs == [] {
      assert PopUndo(lib, [], Undo, oneDoubleTap, touched).lib == lib;
    } else {
      UndoRestoresRatings(lib, imgs, rating, oneDoubleTap, touched);
    }
  }

  /** The ratings dt_ratings_apply_on_image leaves. When the toggle fires
      on the first image (toggle_on, the preference off, that image at one
      star and one star asked), every rated image the cache holds ends with
      no star, whatever it showed. Otherwise each rated image gets the
      request as _ratings_apply computes it for that image alone, and a
      star request 0..5 reads back as asked, or 0 under the double-tap rule. */
  lemma ApplyOnImageRatings(lib: Library, imgid: ImageId, rating: int, toggleOn: bool, undoOn: bool,
                            groupOn: bool, grouped: seq<ImageId>, oneDoubleTap: bool)
    requires imgid > 0
    requires Distinct(if groupOn then grouped else [imgid])
    ensures var a := ApplyOnImage(lib, imgid, rating, toggleOn, undoOn, groupOn, grouped, oneDoubleTap);
            var imgs := if groupOn then grouped else [imgid];
            var fires := toggleOn && DoubleTap(oneDoubleTap, Get(lib, imgid), rating);
            (fires ==> forall id :: id in lib && id in imgs ==> Get(a.lib, id) == DESERT) &&
            (!fires ==> forall id :: id in lib && id in imgs ==>
               a.lib[id] == ApplyToFlags(lib[id], EffectiveRating(RatingOf(lib[id]), rating), oneDoubleTap)) &&
            (!fires && DESERT <= rating <= STAR_5 ==> forall id :: id in lib && id in imgs ==>
               Get(a.lib, id) == (if DoubleTap(oneDoubleTap, Get(lib, id), rating) then DESERT else rating))
  {
    var imgs := if groupOn then grouped else [imgid];
    if toggleOn && DoubleTap(oneDoubleTap, Get(lib, imgid), rating) {
      ApplyListSetsRating(lib, imgs, DESERT, oneDoubleTap, undoOn);
    } else {
      ApplyListPointwise(lib, imgs, rating, oneDoubleTap, undoOn);
      if DESERT <= rating <= STAR_5 {
        ApplyListSetsRating(lib, imgs, rating, oneDoubleTap, undoOn);
      }
    }
  }

  /** The undo records of dt_ratings_apply_on_image over distinct rated
      images: each record holds the rating its image showed before, and
      undo gives every image back its former rating, under the conditions
      of UndoRestoresRatings. */
  lemma ApplyOnImageUndoRestores(lib: Library, imgid: ImageId, rating: int, toggleOn: bool,
                                 groupOn: bool, grouped: seq<ImageId>, oneDoubleTap: bool,
                                 touched: seq<ImageId>)
    requires imgid > 0
    requires Distinct(if groupOn then grouped else [imgid])
    requires ValidRequest(rating)
    ensures var a := ApplyOnImage(lib, imgid, rating, toggleOn, true, groupOn, grouped, oneDoubleTap);
            var imgs := if groupOn then grouped else [imgid];
            (forall i :: 0 <= i < |imgs| ==> a.undo[i].before == Get(lib, imgs[i])) &&
            var u := PopUndo(a.lib, a.undo, Undo, oneDoubleTap, touched);
            u.lib.Keys == lib.Keys && forall id :: Get(u.lib, id) == Get(lib, id)
  {
    var imgs := if groupOn then grouped else [imgid];
    var newRating := if toggleOn && DoubleTap(oneDoubleTap, Get(lib, imgid), rating) then DESERT else rating;
    ApplyListRecordsBefore(lib, imgs, newRating, oneDoubleTap);
    UndoRestoresRatings(lib, imgs, newRating, oneDoubleTap, touched);
  }

  /** With the toggle on, a one-star first image makes a one-star request
      clear a grouped three-star image; with it off the grouped image gets
      its one star. */
  lemma ToggleClearsGroup(lib: Library, first: ImageId, other: ImageId)
    requires first > 0 && first != other
    requires first in lib && other in lib
    requires Get(lib, first) == STAR_1 && Get(lib, other) == 3
    ensures Get(ApplyOnImage(lib, first, STAR_1, true, false, true, [first, other], false).lib, other) == DESERT
    ensures Get(ApplyOnImage(lib, first, STAR_1, false, false, true, [first, other], false).lib, other) == STAR_1
  {
    ApplyOnImageRatings(lib, first, STAR_1, true, false, true, [first, other], false);
    ApplyOnImageRatings(lib, first, STAR_1, false, false, true, [first, other], false);
  }

  /* ---------- redo replays the requested rating ---------- */

  /** Redo hands a negative request to the apply step: its low three bits
      become the star field. */
  lemma RedoRequestFlags(f: Flags, rating: int, oneDoubleTap: bool)
    requires RatingOf(f) <= STAR_5
    requires rating == UPGRADE || rating == DOWNGRADE
    ensures var g := ApplyToFlags(f, EffectiveRating(RatingOf(f), rating), oneDoubleTap);
            var h := ApplyToFlags(g, RatingOf(f), oneDoubleTap);
            RatingOf(ApplyToFlags(h, rating, oneDoubleTap)) == (if rating == UPGRADE then 7 else REJECT)
            && RatingOf(g) <= STAR_5
  {
    var e := EffectiveRating(RatingOf(f), rating);
    UndoStars(f, e, oneDoubleTap);
  }

  /** As written, the undo record keeps the requested rating, and redo hands
      it to _ratings_apply_to_image, which does not interpret UPGRADE or
      DOWNGRADE: redoing an upgrade stores star bits 7, redoing a downgrade
      stores star bits 6, which reads back as REJECT. Either way the image
      does not show the rating the operation gave it. */
  lemma RedoReplaysRequest(lib: Library, id: ImageId, rating: int, oneDoubleTap: bool)
    requires id in lib && Get(lib, id) <= STAR_5
    requires rating == UPGRADE || rating == DOWNGRADE
    ensures var a := ApplyList(lib, [id], rating, oneDoubleTap, true);
            var u := PopUndo(a.lib, a.undo, Undo, oneDoubleTap, []);
            var r := PopUndo(u.lib, a.undo, Redo, oneDoubleTap, []);
            Get(r.lib, id) == (if rating == UPGRADE then 7 else REJECT) && Get(r.lib, id) != Get(a.lib, id)
  {
    var e := EffectiveRating(Get(lib, id), rating);
    var g := ApplyToFlags(lib[id], e, oneDoubleTap);
    var a := ApplyList(lib, [id], rating, oneDoubleTap, true);
    assert a.lib == lib[id := g];
    assert a.undo == [UndoRecord(id, Get(lib, id), rating)];
    var h := ApplyToFlags(g, Get(lib, id), oneDoubleTap);
    var u := PopUndo(a.lib, a.undo, Undo, oneDoubleTap, []);
    assert u.lib == lib[id := h];
    var r := PopUndo(u.lib, a.undo, Redo, oneDoubleTap, []);
    assert r.lib == lib[id := ApplyToFlags(h, rating, oneDoubleTap)];
    RedoRequestFlags(lib[id], rating, oneDoubleTap);
  }

  /** A later downgrade of an image left with star field 7 asks for 6, which
      the apply step takes as REJECT and so sets the reject bit. */
  lemma DowngradeFromSevenRejects(f: Flags, oneDoubleTap: bool)
    requires !Rejected(f) && Stars(f) == 7
    ensures var g := ApplyToFlags(f, EffectiveRating(RatingOf(f), DOWNGRADE), oneDoubleTap);
            Rejected(g) && RatingOf(g) == REJECT && Stars(g) == 7
  {
  }

  /** A word whose star field is 6 reads as REJECT whatever its reject bit,
      so upgrading or downgrading it passes REJECT on. That toggles the
      reject bit (setting it when it was clear) and the image still reads as
      REJECT. Undo then redo of a downgrade leaves such a word. */
  lemma MoveOnStarSix(f: Flags, rating: int, oneDoubleTap: bool)
    requires Stars(f) == 6
    requires rating == UPGRADE || rating == DOWNGRADE
    ensures var g := ApplyToFlags(f, EffectiveRating(RatingOf(f), rating), oneDoubleTap);
            Rejected(g) == !Rejected(f) && RatingOf(g) == REJECT && Stars(g) == 6 && Others(g) == Others(f)
  {
  }

  /** _ratings_apply recording the rating actually handed to the apply step as
      the record's after value, so that redo repeats the change. */
  function ApplyListRecordingEffective(lib: Library, imgs: seq<ImageId>, rating: int, oneDoubleTap: bool): (a: Applied)
    ensures a.lib.Keys == lib.Keys
    ensures |a.undo| == |imgs|
    ensures Ids(a.undo) == imgs
    decreases |imgs|
  {
    if |imgs| == 0 then Applied(lib, [])
    else
      var id := imgs[0];
      var prior := Get(lib, id);
      var effective := EffectiveRating(prior, rating);
      var lib1 := ApplyToImage(lib, id, effective, oneDoubleTap);
      var rest := ApplyListRecordingEffective(lib1, imgs[1..], rating, oneDoubleTap);
      RecordsStep(imgs, UndoRecord(id, prior, effective), rest.undo);
      Applied(rest.lib, [UndoRecord(id, prior, effective)] + rest.undo)
  }

  /** The corrected operation changes the image cache exactly as _ratings_apply does. */
  lemma {:induction false} RecordingEffectiveSameLibrary(lib: Library, imgs: seq<ImageId>, rating: int, oneDoubleTap: bool)
    ensures ApplyListRecordingEffective(lib, imgs, rating, oneDoubleTap).lib == ApplyList(lib, imgs, rating, oneDoubleTap, true).lib
    decreases |imgs|
  {
    if |imgs| > 0 {
      var id := imgs[0];
      var lib1 := ApplyToImage(lib, id, EffectiveRating(Get(lib, id), rating), oneDoubleTap);
      RecordingEffectiveSameLibrary(lib1, imgs[1..], rating, oneDoubleTap);
    }
  }

  /** Over distinct images, each record of the corrected operation holds the
      rating read before and the rating the apply step was given. */
  lemma {:induction false} RecordingEffectiveRecords(lib: Library, imgs: seq<ImageId>, rating: int, oneDoubleTap: bool)
    requires Distinct(imgs)
    ensures var a := ApplyListRecordingEffective(lib, imgs, rating, oneDoubleTap);
            forall i :: 0 <= i < |imgs| ==>
              a.undo[i].before == Get(lib, imgs[i]) && a.undo[i].after == EffectiveRating(Get(lib, imgs[i]), rating)
    decreases |imgs|
  {
    if |imgs| > 0 {
      var id := imgs[0];
      var lib1 := ApplyToImage(lib, id, EffectiveRating(Get(lib, id), rating), oneDoubleTap);
      var rest := imgs[1..];
      assert Distinct(rest);
      RecordingEffectiveRecords(lib1, rest, rating, oneDoubleTap);
      var a := ApplyListRecordingEffective(lib, imgs, rating, oneDoubleTap);
      forall i | 0 <= i < |imgs|
        ensures a.undo[i].before == Get(lib, imgs[i]) && a.undo[i].after == EffectiveRating(Get(lib, imgs[i]), rating)
      {
        if i > 0 {
          assert rest[i - 1] == imgs[i] && imgs[i] != id;
        }
      }
    }
  }

  /** Redoing a star rating 0..5 after its undo restores the flags exactly. */
  lemma RedoStars(f: Flags, e: int, oneDoubleTap: bool)
    requires DESERT <= e <= STAR_5
    ensures var g := ApplyToFlags(f, e, oneDoubleTap);
            ApplyToFlags(ApplyToFlags(g, RatingOf(f), oneDoubleTap), e, oneDoubleTap) == g
  {
    var g := ApplyToFlags(f, e, oneDoubleTap);
    var h := ApplyToFlags(g, RatingOf(f), oneDoubleTap);
    UndoStars(f, e, oneDoubleTap);
    SameParts(ApplyToFlags(h, e, oneDoubleTap), g);
  }

  /** Redoing the effective rating after undo restores the flags of one image exactly. */
  lemma RedoFlags(f: Flags, rating: int, oneDoubleTap: bool)
    requires ValidRequest(rating)
    ensures var e := EffectiveRating(RatingOf(f), rating);
            var g := ApplyToFlags(f, e, oneDoubleTap);
            ApplyToFlags(ApplyToFlags(g, RatingOf(f), oneDoubleTap), e, oneDoubleTap) == g
  {
    var e := EffectiveRating(RatingOf(f), rating);
    if e == REJECT {
      UndoToggle(f, oneDoubleTap);
    } else {
      RedoStars(f, e, oneDoubleTap);
    }
  }

  /** One image of a corrected operation after its undo and redo. */
  lemma RedoAtImage(lib: Library, imgs: seq<ImageId>, rating: int, oneDoubleTap: bool, id: ImageId)
    requires Distinct(imgs)
    requires ValidRequest(rating)
    requires id in lib
    ensures var a := ApplyListRecordingEffective(lib, imgs, rating, oneDoubleTap);
            var u := PopUndo(a.lib, a.undo, Undo, oneDoubleTap, []);
            PopUndo(u.lib, a.undo, Redo, oneDoubleTap, []).lib[id] == a.lib[id]
  {
    var a := ApplyListRecordingEffective(lib, imgs, rating, oneDoubleTap);
    var u := PopUndo(a.lib, a.undo, Undo, oneDoubleTap, []);
    var r := PopUndo(u.lib, a.undo, Redo, oneDoubleTap, []);
    if id in imgs {
      var i :| 0 <= i < |imgs| && imgs[i] == id;
      var rec := a.undo[i];
      var e := EffectiveRating(RatingOf(lib[id]), rating);
      assert rec.imgid == id && rec.before == RatingOf(lib[id]) && rec.after == e by {
        RecordingEffectiveRecords(lib, imgs, rating, oneDoubleTap);
      }
      assert a.lib[id] == ApplyToFlags(lib[id], e, oneDoubleTap) by {
        RecordingEffectiveSameLibrary(lib, imgs, rating, oneDoubleTap);
        ApplyListPointwise(lib, imgs, rating, oneDoubleTap, true);
      }
      assert u.lib[id] == ApplyToFlags(a.lib[id], rec.before, oneDoubleTap) by {
        PopUndoPointwise(a.lib, a.undo, Undo, oneDoubleTap, []);
      }
      assert r.lib[id] == ApplyToFlags(u.lib[id], rec.after, oneDoubleTap) by {
        PopUndoPointwise(u.lib, a.undo, Redo, oneDoubleTap, []);
      }
      RedoFlags(lib[id], rating, oneDoubleTap);
    } else {
      assert id !in Ids(a.undo);
    }
  }

  /** With effective ratings recorded, undo followed by redo gives back
      exactly the image cache the operation produced. */
  lemma RedoRestoresApplied(lib: Library, imgs: seq<ImageId>, rating: int, oneDoubleTap: bool)
    requires Distinct(imgs)
    requires ValidRequest(rating)
    ensures var a := ApplyListRecordingEffective(lib, imgs, rating, oneDoubleTap);
            var u := PopUndo(a.lib, a.undo, Undo, oneDoubleTap, []);
            var r := PopUndo(u.lib, a.undo, Redo, oneDoubleTap, []);
            r.lib.Keys == a.lib.Keys && forall id :: id in a.lib ==> r.lib[id] == a.lib[id]
  {
    var a := ApplyListRecordingEffective(lib, imgs, rating, oneDoubleTap);
    var u := PopUndo(a.lib, a.undo, Undo, oneDoubleTap, []);
    var r := PopUndo(u.lib, a.undo, Redo, oneDoubleTap, []);
    assert r.lib.Keys == a.lib.Keys;
    forall id | id in a.lib
      ensures r.lib[id] == a.lib[id]
    {
      RedoAtImage(lib, imgs, rating, oneDoubleTap, id);
    }
  }
}

=== FILE: rawload.dfy ===
/*
 * Model of the outcome and clean-up logic of darktable's RawSpeed loader,
 * src/common/imageio_rawspeed.cc: dt_imageio_open_rawspeed (the full image),
 * dt_imageio_open_rawspeed_preview, and their small-raw branches
 * dt_imageio_open_rawspeed_sraw and dt_imageio_open_rawspeed_sraw_preview.
 *
 * RawSpeed itself is not modelled. Each step that can throw becomes a Stage
 * outcome handed in from outside (a Decoding), each allocation that can fail
 * becomes a boolean, each resource the loader owns (the file map, the
 * decoder, the preview buffer) carries a Life that its acquisitions and
 * frees advance, and the other calls whose presence or order matters are
 * recorded as a trace of Calls.
 */
module RawLoad {
  import SmallRaw

  /* ---------- result codes, exceptions, outcomes ---------- */

  /** dt_imageio_retval_t, restricted to the codes this loader returns. */
  datatype RetVal = Ok | FileCorrupted | CacheFull

  /** The RawSpeed exception classes the loader names in its handlers, and
      everything else (anything another library or the runtime may throw).
      Each value is the most derived class of the thrown object. RawSpeed
      derives FileIOException from RawDecoderException; the other named
      classes are unrelated to one another. */
  datatype RawSpeedException =
    | FileIOException
    | TiffParserException
    | RawDecoderException
    | CameraMetadataException
    | OtherException

  /** Outcome of one RawSpeed call. */
  datatype Stage = Pass | Throw(e: RawSpeedException)

  /** How a loader call ends: a returned code, or an exception no handler
      of the loader catches. */
  datatype Exit = Returned(code: RetVal) | Escaped(e: RawSpeedException)

  /* ---------- resources ---------- */

  /** The life of one resource: never acquired, held, released, or misused
      (acquired twice, or freed while not held). */
  datatype Life = Unused | Held | Released | Misused

  /** Acquiring a resource; only an unused one can be. */
  function Take(l: Life): (l': Life)
    ensures l' == Held <==> l == Unused
    ensures l' != Released
  {
    if l == Unused then Held else Misused
  }

  /** Freeing a resource; only a held one can be. */
  function Give(l: Life): (l': Life)
    ensures l' == Released <==> l == Held
    ensures l' != Held && l' != Unused
  {
    if l == Held then Released else Misused
  }

  /** The lives of the file map m, the decoder d and the preview buffer buf. */
  datatype Holdings = Holdings(fileMap: Life, decoder: Life, buffer: Life)

  const Nothing := Holdings(Unused, Unused, Unused)

  /** The handlers' cleanup: the decoder is freed when it exists
      (haveDecoder), then the file map when it exists (haveMap). */
  function Cleanup(h: Holdings, haveDecoder: bool, haveMap: bool): Holdings {
    h.(decoder := if haveDecoder then Give(h.decoder) else h.decoder,
       fileMap := if haveMap then Give(h.fileMap) else h.fileMap)
  }

  /** Nothing is held: everything acquired has been released. */
  predicate NoneHeld(h: Holdings) {
    h.fileMap != Held && h.decoder != Held && h.buffer != Held
  }

  /** No resource was acquired twice or freed without being held. */
  predicate NoneMisused(h: Holdings) {
    h.fileMap != Misused && h.decoder != Misused && h.buffer != Misused
  }

  /** Calls other than acquisitions and frees whose presence or order the
      model tracks. */
  datatype Call =
    | SetFailOnUnknown           // the decoder is told to fail on unknown cameras
    | CheckSupport               // the decoder checks the camera is supported
    | FlipBuffers                // standard branch copies the decoded raw
    | CopySmallRaw(padding: nat) // small-raw triple loop, with its row padding
    | RawToPreview               // dt_image_raw_to_preview
    | ImageRelease               // dt_image_release(img, DT_IMAGE_FULL, 'w')

  /* ---------- images and decoder outcomes ---------- */

  /** The fields of RawSpeed's decoded image the loader looks at.
      cfa is the value of cfa.getDcrawFilter(). */
  datatype RawImage = RawImage(dimX: int, dimY: int, subX: int, subY: int,
                               isFloat: bool, bpp: int, cfa: int)

  /** The fields of dt_image_t the loader reads or writes. orientation is
      the value dt_image_orientation returns for the image (the stored
      orientation with any user override applied), not a stored field.
      makerModel is what dt_colorspaces_get_makermodel builds from the EXIF
      maker and model. */
  datatype Image = Image(flags: int, filters: int, bpp: int, width: int, height: int,
                         orientation: int, makerModel: string)

  /** Outcome of every RawSpeed step, in program order. metaLoad is the
      construction of the camera database (only attempted while it is not
      loaded yet); checkStrict and checkDefault are checkSupport with and
      without failOnUnknown set. */
  datatype Decoding = Decoding(metaLoad: Stage, readFile: Stage, parse: Stage,
                               decoderFound: bool,
                               checkStrict: Stage, checkDefault: Stage,
                               decodeRaw: Stage, decodeMeta: Stage,
                               raw: RawImage)

  /** Which loader: the full image or the preview. */
  datatype Path = Full | Preview

  datatype Run = Run(exit: Exit, calls: seq<Call>, held: Holdings, img: Image)

  /* ---------- image flags ---------- */

  /** The dt_image_t flag bits the loader touches: DT_IMAGE_LDR = 32,
      DT_IMAGE_RAW = 64, DT_IMAGE_HDR = 128. */
  datatype ImageFlag = Ldr | Raw | Hdr

  function Weight(fl: ImageFlag): (w: int)
    ensures w == 32 || w == 64 || w == 128
  {
    match fl
    case Ldr => 32
    case Raw => 64
    case Hdr => 128
  }

  /** Bit fl of a C int, read as a bit of the two's-complement
      representation. */
  predicate Has(f: int, fl: ImageFlag) {
    (f / Weight(fl)) % 2 == 1
  }

  /** A flags word from its bits above DT_IMAGE_HDR, the three flags, and
      its bits below DT_IMAGE_LDR. */
  function Compose(hi: int, hdr: bool, raw: bool, ldr: bool, lo: int): int {
    hi * 256 + (if hdr then 128 else 0) + (if raw then 64 else 0) + (if ldr then 32 else 0) + lo
  }

  /** Quotient and remainder of q * d + r for a remainder in range, for the
      powers of two that bound the flag bits. */
  lemma Split(q: int, r: int, d: int)
    requires d == 32 || d == 64 || d == 128 || d == 256
    requires 0 <= r < d
    ensures (q * d + r) / d == q && (q * d + r) % d == r
  {
    if d == 32 {
    } else if d == 64 {
    } else if d == 128 {
    } else {
    }
  }

  /** The low bit of q * 2 + b. */
  lemma LowBit(q: int, b: int)
    requires b == 0 || b == 1
    ensures (q * 2 + b) % 2 == b
  {
  }

  /** The parts of a composed word read back. */
  lemma ComposeReads(hi: int, hdr: bool, raw: bool, ldr: bool, lo: int)
    requires 0 <= lo < 32
    ensures var f := Compose(hi, hdr, raw, ldr, lo);
            f / 256 == hi && f % 32 == lo && Has(f, Hdr) == hdr && Has(f, Raw) == raw && Has(f, Ldr) == ldr
  {
    var f := Compose(hi, hdr, raw, ldr, lo);
    var b2, b1, b0 := (if hdr then 1 else 0), (if raw then 1 else 0), (if ldr then 1 else 0);
    assert f == (hi * 8 + b2 * 4 + b1 * 2 + b0) * 32 + lo;
    Split(hi * 8 + b2 * 4 + b1 * 2 + b0, lo, 32);
    LowBit(hi * 4 + b2 * 2 + b1, b0);
    assert f == (hi * 4 + b2 * 2 + b1) * 64 + (b0 * 32 + lo);
    Split(hi * 4 + b2 * 2 + b1, b0 * 32 + lo, 64);
    LowBit(hi * 2 + b2, b1);
    assert f == (hi * 2 + b2) * 128 + (b1 * 64 + b0 * 32 + lo);
    Split(hi * 2 + b2, b1 * 64 + b0 * 32 + lo, 128);
    LowBit(hi, b2);
    assert f == hi * 256 + (b2 * 128 + b1 * 64 + b0 * 32 + lo);
    Split(hi, b2 * 128 + b1 * 64 + b0 * 32 + lo, 256);
  }

  /** Every word is composed of its parts. */
  lemma Decompose(f: int)
    ensures f == Compose(f / 256, Has(f, Hdr), Has(f, Raw), Has(f, Ldr), f % 32)
  {
    var q := f / 32;
    assert f == q * 32 + f % 32;
    assert q / 2 == f / 64 && q == (f / 64) * 2 + q % 2;
    assert (f / 64) / 2 == f / 128 && f / 64 == (f / 128) * 2 + (f / 64) % 2;
    assert (f / 128) / 2 == f / 256 && f / 128 == (f / 256) * 2 + (f / 128) % 2;
  }

  /** f with flag fl set. */
  function SetFlag(f: int, fl: ImageFlag): (g: int)
    ensures Has(g, fl)
    ensures forall o :: o != fl ==> (Has(g, o) <==> Has(f, o))
    ensures g % 32 == f % 32 && g / 256 == f / 256
  {
    Decompose(f);
    var hdr, raw, ldr := Has(f, Hdr), Has(f, Raw), Has(f, Ldr);
    ComposeReads(f / 256, hdr || fl == Hdr, raw || fl == Raw, ldr || fl == Ldr, f % 32);
    if Has(f, fl) then f else f + Weight(fl)
  }

  /** f with flag fl cleared. */
  function ClearFlag(f: int, fl: ImageFlag): (g: int)
    ensures !Has(g, fl)
    ensures forall o :: o != fl ==> (Has(g, o) <==> Has(f, o))
    ensures g % 32 == f % 32 && g / 256 == f / 256
  {
    Decompose(f);
    var hdr, raw, ldr := Has(f, Hdr), Has(f, Raw), Has(f, Ldr);
    ComposeReads(f / 256, hdr && fl != Hdr, raw && fl != Raw, ldr && fl != Ldr, f % 32);
    if Has(f, fl) then f - Weight(fl) else f
  }

  /** The flags of an image whose data is camera raw: the LDR bit cleared,
      then the RAW bit set. */
  function RawFlags(f: int): (g: int)
    ensures !Has(g, Ldr) && Has(g, Raw) && (Has(g, Hdr) <==> Has(f, Hdr))
    ensures g % 32 == f % 32 && g / 256 == f / 256
  {
    SetFlag(ClearFlag(f, Ldr), Raw)
  }

  /* ---------- orientation ---------- */

  /** orientation & 4: the image is stored transposed. Euclidean % on a C
      int selects the same low bits as & on its two's-complement form. */
  predicate Transposed(orientation: int) {
    orientation % 8 >= 4
  }

  /** Transposed is bit 2 of the two's-complement orientation. */
  lemma TransposedIsBit2(orientation: int)
    ensures Transposed(orientation) <==> (orientation / 4) % 2 == 1
  {
    var q := orientation / 8;
    assert orientation == q * 8 + orientation % 8;
    assert orientation / 4 == q * 2 + (orientation % 8) / 4;
  }

  /** Output width and height for raw dimensions dimX x dimY: the same two
      numbers, swapped when the image is stored transposed. */
  function OrientedSize(orientation: int, dimX: int, dimY: int): (wh: (int, int))
    ensures multiset{wh.0, wh.1} == multiset{dimX, dimY}
    ensures Transposed(orientation) ==> wh.0 == dimY && wh.1 == dimX
    ensures !Transposed(orientation) ==> wh.0 == dimX && wh.1 == dimY
  {
    if Transposed(orientation) then (dimY, dimX) else (dimX, dimY)
  }

  /** Stores the oriented dimensions into the image. */
  function Oriented(img: Image, raw: RawImage): (out: Image)
    ensures multiset{out.width, out.height} == multiset{raw.dimX, raw.dimY}
    ensures out == img.(width := out.width, height := out.height)
  {
    var wh := OrientedSize(img.orientation, raw.dimX, raw.dimY);
    img.(width := wh.0, height := wh.1)
  }

  /* ---------- handlers ---------- */

  /** Caught by the outer handlers of both loaders. */
  predicate CaughtOutside(e: RawSpeedException) {
    e == CameraMetadataException || e == TiffParserException
  }

  /** Caught inside the decoding try block, whose handler names
      RawDecoderException and so also takes the derived FileIOException, or
      by the outer handlers. */
  predicate CaughtInDecoding(e: RawSpeedException) {
    e == RawDecoderException || e == FileIOException || CaughtOutside(e)
  }

  /** An exception reaches the handlers: caught, it frees what the non-null
      pointers hold and returns FILE_CORRUPTED; uncaught, it leaves the
      loader with everything still held. */
  function Fail(e: RawSpeedException, caught: bool, calls: seq<Call>, held: Holdings,
                haveDecoder: bool, haveMap: bool, img: Image): (run: Run)
    ensures caught ==> run.exit == Returned(FileCorrupted)
    ensures !caught ==> run.exit == Escaped(e) && run.held == held
    ensures run.calls == calls && run.img == img
  {
    if caught then Run(Returned(FileCorrupted), calls, Cleanup(held, haveDecoder, haveMap), img)
    else Run(Escaped(e), calls, held, img)
  }

  /* ---------- small-raw branch ---------- */

  /** dt_imageio_open_rawspeed_sraw (path == Full; allocOk: dt_image_alloc
      succeeded) and dt_imageio_open_rawspeed_sraw_preview (path ==
      Preview; allocOk: dt_alloc_align returned a buffer). */
  function OpenSraw(path: Path, img: Image, raw: RawImage, allocOk: bool, held: Holdings): (run: Run)
    requires held.buffer == Unused
    ensures run.exit == Returned(if allocOk then Ok else CacheFull)
    ensures run.img == Oriented(img.(flags := RawFlags(img.flags)), raw)
    ensures allocOk <==> CopySmallRaw(SmallRaw.RowPadding(img.makerModel, raw.subY)) in run.calls
    ensures ImageRelease in run.calls <==> allocOk
    ensures RawToPreview in run.calls <==> allocOk && path.Preview?
    ensures FlipBuffers !in run.calls && SetFailOnUnknown !in run.calls && CheckSupport !in run.calls
    ensures run.held == held.(buffer := if allocOk && path == Preview then Released else Unused)
  {
    var out := Oriented(img.(flags := RawFlags(img.flags)), raw);
    var padding := SmallRaw.RowPadding(img.makerModel, raw.subY);
    if !allocOk then Run(Returned(CacheFull), [], held, out)
    else if path == Full then Run(Returned(Ok), [CopySmallRaw(padding), ImageRelease], held, out)
    else
      var calls := [CopySmallRaw(padding), RawToPreview, ImageRelease];
      assert calls[1] == RawToPreview;
      Run(Returned(Ok), calls, held.(buffer := Give(Take(held.buffer))), out)
  }

  /* ---------- standard branch ---------- */

  /** Flags after the standard branch reads the CFA filter: raw data when
      there is a filter, and HDR too when the samples are float. */
  function StandardFlags(f: int, raw: RawImage): (g: int)
    ensures raw.cfa == 0 ==> g == f
    ensures raw.cfa != 0 ==> !Has(g, Ldr) && Has(g, Raw) && (Has(g, Hdr) <==> Has(f, Hdr) || raw.isFloat)
    ensures g % 32 == f % 32 && g / 256 == f / 256
  {
    if raw.cfa != 0 then
      var g := RawFlags(f);
      if raw.isFloat then SetFlag(g, Hdr) else g
    else f
  }

  /** The image after the standard branch. */
  function StandardImage(img: Image, raw: RawImage): Image {
    Oriented(img.(bpp := raw.bpp, filters := raw.cfa, flags := StandardFlags(img.flags, raw)), raw)
  }

  /** The small-raw branch is taken when either axis is subsampled. */
  predicate SmallBranch(raw: RawImage) {
    raw.subX > 1 || raw.subY > 1
  }

  /** Everything after decoding succeeded: branch, allocate, copy, and
      clean up. The map and the decoder are held on entry. */
  function AfterDecode(path: Path, img: Image, raw: RawImage, allocOk: bool, held: Holdings): (r: Run)
    requires held.buffer == Unused
    ensures r.exit == Returned(if allocOk then Ok else CacheFull)
    ensures r.held == Cleanup(held, true, true).(buffer := if path == Preview && allocOk then Released else Unused)
  {
    var img0 := img.(filters := 0);
    if SmallBranch(raw) then
      var s := OpenSraw(path, img0.(flags := RawFlags(img0.flags)), raw, allocOk, held);
      Run(s.exit, s.calls, Cleanup(s.held, true, true), s.img)
    else
      var out := StandardImage(img0, raw);
      if !allocOk then Run(Returned(CacheFull), [], Cleanup(held, true, true), out)
      else if path == Full then
        Run(Returned(Ok), [FlipBuffers, ImageRelease], Cleanup(held, true, true), out)
      else
        var out' := if out.filters != 0 then out.(flags := RawFlags(out.flags)) else out;
        var buf := held.(buffer := Take(held.buffer));
        Run(Returned(Ok), [FlipBuffers, RawToPreview, ImageRelease],
            Cleanup(buf.(buffer := Give(buf.buffer)), true, true), out')
  }

  /** The calls the loaders make on a new decoder before decoding: the full
      loader sets failOnUnknown, then both call checkSupport. */
  function Prelude(path: Path): (calls: seq<Call>)
    ensures calls == (if path.Full? then [SetFailOnUnknown, CheckSupport] else [CheckSupport])
  {
    (if path == Full then [SetFailOnUnknown] else []) + [CheckSupport]
  }

  /* ---------- the loaders ---------- */

  /** dt_imageio_open_rawspeed (path == Full) and
      dt_imageio_open_rawspeed_preview (path == Preview). metaLoaded says
      whether the camera database exists already; allocOk whether the one
      allocation the path makes succeeds. */
  function Open(path: Path, dec: Decoding, metaLoaded: bool, allocOk: bool, img: Image): (run: Run)
    ensures NoneMisused(run.held)
    ensures run.exit.Escaped? ==> run.img == img && ImageRelease !in run.calls
  {
    if !metaLoaded && dec.metaLoad.Throw? then
      var e := dec.metaLoad.e;
      Fail(e, CaughtOutside(e), [], Nothing, false, false, img)
    else if dec.readFile.Throw? then
      var e := dec.readFile.e;
      if e == FileIOException then Run(Returned(FileCorrupted), [], Nothing, img)
      else Fail(e, CaughtOutside(e), [], Nothing, false, false, img)
    else
      var m := Nothing.(fileMap := Take(Nothing.fileMap));
      if dec.parse.Throw? then
        var e := dec.parse.e;
        Fail(e, CaughtOutside(e), [], m, false, true, img)
      else if !dec.decoderFound then Run(Returned(FileCorrupted), [], m, img)
      else
        var d := m.(decoder := Take(m.decoder));
        var check := if path == Full then dec.checkStrict else dec.checkDefault;
        var calls := Prelude(path);
        var s := if check.Throw? then check else if dec.decodeRaw.Throw? then dec.decodeRaw else dec.decodeMeta;
        if s.Throw? then Fail(s.e, CaughtInDecoding(s.e), calls, d, true, true, img)
        else
          var a := AfterDecode(path, img, dec.raw, allocOk, d);
          Run(a.exit, calls + a.calls, a.held, a.img)
  }

  /* ---------- reference: how far the decoding gets ---------- */

  /** Where an exception is raised, which decides which handlers see it. */
  datatype Site = MetaSite | ReadSite | ParseSite | DecodeSite

  /** The handler table: which exceptions are caught at each site. */
  predicate Catches(site: Site, e: RawSpeedException): (b: bool)
    ensures site == DecodeSite ==> (b <==> CaughtInDecoding(e))
    ensures site == MetaSite || site == ParseSite ==> (b <==> CaughtOutside(e))
    ensures site == ReadSite ==> (b <==> e == FileIOException || CaughtOutside(e))
  {
    match site
    case MetaSite => e == CameraMetadataException || e == TiffParserException
    case ReadSite => e == FileIOException || e == CameraMetadataException || e == TiffParserException
    case ParseSite => e == CameraMetadataException || e == TiffParserException
    case DecodeSite =>
      e == RawDecoderException || e == FileIOException || e == CameraMetadataException || e == TiffParserException
  }

  /** How far RawSpeed gets: the first step that throws, the decoder that
      is not found, or a complete decoding. */
  datatype Fate = Threw(site: Site, e: RawSpeedException) | NoDecoder | Decoded

  function FateOf(path: Path, dec: Decoding, metaLoaded: bool): (fate: Fate)
    ensures fate == Decoded <==>
              (metaLoaded || dec.metaLoad.Pass?) && dec.readFile.Pass? && dec.parse.Pass? && dec.decoderFound &&
              (if path == Full then dec.checkStrict else dec.checkDefault).Pass? &&
              dec.decodeRaw.Pass? && dec.decodeMeta.Pass?
    ensures fate.Threw? && fate.site == MetaSite ==> !metaLoaded
    ensures DecoderCreated(fate) ==> dec.readFile.Pass? && dec.parse.Pass? && dec.decoderFound
  {
    var check := if path == Full then dec.checkStrict else dec.checkDefault;
    if !metaLoaded && dec.metaLoad.Throw? then Threw(MetaSite, dec.metaLoad.e)
    else if dec.readFile.Throw? then Threw(ReadSite, dec.readFile.e)
    else if dec.parse.Throw? then Threw(ParseSite, dec.parse.e)
    else if !dec.decoderFound then NoDecoder
    else if check.Throw? then Threw(DecodeSite, check.e)
    else if dec.decodeRaw.Throw? then Threw(DecodeSite, dec.decodeRaw.e)
    else if dec.decodeMeta.Throw? then Threw(DecodeSite, dec.decodeMeta.e)
    else Decoded
  }

  /** The decoder was constructed: decoding got past the null check. */
  predicate DecoderCreated(fate: Fate) {
    fate == Decoded || (fate.Threw? && fate.site == DecodeSite)
  }

  /** What each site holds when its exception is raised: nothing before the
      file is read, the file map during parsing, and the map and the
      decoder while decoding. */
  function HeldAt(site: Site): Holdings {
    match site
    case MetaSite => Nothing
    case ReadSite => Nothing
    case ParseSite => Holdings(Held, Unused, Unused)
    case DecodeSite => Holdings(Held, Held, Unused)
  }

  /** Either loader, by how far decoding gets: an exception goes to the
      handlers of its site with what the site holds; a missing decoder
      returns FILE_CORRUPTED keeping the file map; a complete decoding runs
      the prelude calls and then the branch after decoding. */
  lemma OpenShape(path: Path, dec: Decoding, metaLoaded: bool, allocOk: bool, img: Image)
    ensures var run := Open(path, dec, metaLoaded, allocOk, img);
            var fate := FateOf(path, dec, metaLoaded);
            (fate.Threw? ==>
               run == Fail(fate.e, Catches(fate.site, fate.e), if fate.site == DecodeSite then Prelude(path) else [],
                           HeldAt(fate.site), fate.site == DecodeSite, fate.site == ParseSite || fate.site == DecodeSite, img)) &&
            (fate == NoDecoder ==> run == Run(Returned(FileCorrupted), [], Holdings(Held, Unused, Unused), img)) &&
            (fate == Decoded ==>
               var a := AfterDecode(path, img, dec.raw, allocOk, Holdings(Held, Held, Unused));
               run == Run(a.exit, Prelude(path) + a.calls, a.held, a.img))
  {
    var fate := FateOf(path, dec, metaLoaded);
    if fate.Threw? && fate.site == ReadSite && fate.e == FileIOException {
      assert Cleanup(Nothing, false, false) == Nothing;
    }
  }

  /* ---------- outcome ---------- */

  /** The result code of either loader is decided by how far decoding
      gets, the handler table and the allocation: OK exactly when decoding
      completes and the allocation succeeds, CACHE_FULL exactly when it
      completes and the allocation fails, FILE_CORRUPTED exactly for a
      missing decoder or a caught exception, and an exception escapes
      exactly when it is thrown where no handler names it. */
  lemma OpenOutcome(path: Path, dec: Decoding, metaLoaded: bool, allocOk: bool, img: Image)
    ensures var run := Open(path, dec, metaLoaded, allocOk, img);
            var fate := FateOf(path, dec, metaLoaded);
            (run.exit == Returned(Ok) <==> fate == Decoded && allocOk) &&
            (run.exit == Returned(CacheFull) <==> fate == Decoded && !allocOk) &&
            (run.exit == Returned(FileCorrupted) <==>
               fate == NoDecoder || (fate.Threw? && Catches(fate.site, fate.e))) &&
            (forall e :: run.exit == Escaped(e) <==> fate.Threw? && fate.e == e && !Catches(fate.site, e))
  {
    OpenShape(path, dec, metaLoaded, allocOk, img);
    if FateOf(path, dec, metaLoaded) == Decoded {
    }
  }

  /* ---------- resources ---------- */

  /** Resources on every exit of either loader: nothing is acquired twice
      or freed unheld; every returning exit except the null-decoder one
      leaves nothing held, the preview buffer included; the null-decoder
      return keeps the file map; an escaping exception frees nothing; a
      failure before the file is read holds nothing; only a successful
      preview allocates the preview buffer. */
  lemma OpenReleases(path: Path, dec: Decoding, metaLoaded: bool, allocOk: bool, img: Image)
    ensures var run := Open(path, dec, metaLoaded, allocOk, img);
            var fate := FateOf(path, dec, metaLoaded);
            var h := run.held;
            NoneMisused(h) &&
            (run.exit.Returned? && fate != NoDecoder ==> NoneHeld(h)) &&
            (DecoderCreated(fate) ==> h.fileMap != Unused && h.decoder != Unused) &&
            (fate == NoDecoder ==> h == Holdings(Held, Unused, Unused)) &&
            (run.exit.Escaped? ==> h.fileMap != Released && h.decoder != Released && h.buffer != Released) &&
            (fate.Threw? && (fate.site == MetaSite || fate.site == ReadSite) ==> h == Nothing) &&
            (h.buffer != Unused <==> path == Preview && run.exit == Returned(Ok))
  {
    OpenShape(path, dec, metaLoaded, allocOk, img);
    var fate := FateOf(path, dec, metaLoaded);
    if fate == Decoded {
    }
  }

  /** A file that turns out truncated while decoding: RawSpeed raises
      FileIOException from decodeRaw, the handler for its base class
      RawDecoderException catches it, and either loader frees the decoder
      and the file map and returns FILE_CORRUPTED. */
  lemma TruncatedFileCorrupted(path: Path, dec: Decoding, metaLoaded: bool, allocOk: bool, img: Image)
    requires FateOf(path, dec, metaLoaded) == Threw(DecodeSite, FileIOException)
    ensures var run := Open(path, dec, metaLoaded, allocOk, img);
            run.exit == Returned(FileCorrupted) && NoneHeld(run.held) && NoneMisused(run.held) && run.img == img
  {
    OpenShape(path, dec, metaLoaded, allocOk, img);
  }

  /* ---------- calls ---------- */

  /** failOnUnknown is set only by the full loader, right before
      checkSupport, and checkSupport runs exactly when a decoder exists;
      the image is released for writing exactly on OK. */
  lemma OpenCalls(path: Path, dec: Decoding, metaLoaded: bool, allocOk: bool, img: Image)
    ensures var run := Open(path, dec, metaLoaded, allocOk, img);
            var fate := FateOf(path, dec, metaLoaded);
            var calls := run.calls;
            (SetFailOnUnknown in calls <==> path.Full? && DecoderCreated(fate)) &&
            (CheckSupport in calls <==> DecoderCreated(fate)) &&
            (path.Full? && DecoderCreated(fate) ==> |calls| >= 2 && calls[0] == SetFailOnUnknown && calls[1] == CheckSupport) &&
            (ImageRelease in calls <==> run.exit == Returned(Ok))
  {
    var run := Open(path, dec, metaLoaded, allocOk, img);
    if FateOf(path, dec, metaLoaded) == Decoded {
      var a := OpenCallsDecoded(path, dec, metaLoaded, allocOk, img);
      InConcat(Prelude(path), a.calls);
    } else {
      OpenCallsUndecoded(path, dec, metaLoaded, allocOk, img);
    }
  }

  /** The calls of a complete decoding: the prelude, then the calls after
      decoding, which neither set failOnUnknown nor call checkSupport and
      release the image exactly on OK. */
  lemma OpenCallsDecoded(path: Path, dec: Decoding, metaLoaded: bool, allocOk: bool, img: Image)
    returns (a: Run)
    requires FateOf(path, dec, metaLoaded) == Decoded
    ensures var run := Open(path, dec, metaLoaded, allocOk, img);
            run.calls == Prelude(path) + a.calls && run.exit == a.exit &&
            SetFailOnUnknown !in a.calls && CheckSupport !in a.calls &&
            (ImageRelease in a.calls <==> a.exit == Returned(Ok))
  {
    OpenShape(path, dec, metaLoaded, allocOk, img);
    a := AfterDecode(path, img, dec.raw, allocOk, Holdings(Held, Held, Unused));
    AfterDecodeCalls(path, img, dec.raw, allocOk);
  }

  /** Short of a complete decoding, the only calls are the prelude, made
      exactly when the decoder exists, and the loader does not return OK. */
  lemma OpenCallsUndecoded(path: Path, dec: Decoding, metaLoaded: bool, allocOk: bool, img: Image)
    requires FateOf(path, dec, metaLoaded) != Decoded
    ensures var run := Open(path, dec, metaLoaded, allocOk, img);
            run.calls == (if DecoderCreated(FateOf(path, dec, metaLoaded)) then Prelude(path) else []) &&
            run.exit != Returned(Ok)
  {
    OpenShape(path, dec, metaLoaded, allocOk, img);
  }

  /** Membership in a concatenation. */
  lemma InConcat(xs: seq<Call>, ys: seq<Call>)
    ensures forall c :: c in xs + ys <==> c in xs || c in ys
  {
  }

  /** The part after decoding makes neither of the decoding calls, and
      releases the image exactly when it allocates. */
  lemma AfterDecodeCalls(path: Path, img: Image, raw: RawImage, allocOk: bool)
    ensures var calls := AfterDecode(path, img, raw, allocOk, Holdings(Held, Held, Unused)).calls;
            SetFailOnUnknown !in calls && CheckSupport !in calls &&
            (ImageRelease in calls <==> allocOk)
  {
  }

  /** After a complete decoding with a successful allocation, the
      small-raw copy runs, with the 50D padding rule, exactly in the
      small-raw branch; the buffer flip exactly in the standard branch;
      and the preview conversion exactly on the preview path. */
  lemma OpenBranch(path: Path, dec: Decoding, metaLoaded: bool, img: Image)
    requires FateOf(path, dec, metaLoaded) == Decoded
    ensures var calls := Open(path, dec, metaLoaded, true, img).calls;
            var raw := dec.raw;
            (CopySmallRaw(SmallRaw.RowPadding(img.makerModel, raw.subY)) in calls <==> SmallBranch(raw)) &&
            (FlipBuffers in calls <==> !SmallBranch(raw)) &&
            (RawToPreview in calls <==> path.Preview?)
  {
    OpenShape(path, dec, metaLoaded, true, img);
    var a := AfterDecode(path, img, dec.raw, true, Holdings(Held, Held, Unused));
    var pre := Prelude(path);
    InConcat(pre, a.calls);
    AfterDecodeBranch(path, img, dec.raw);
  }

  /** The calls after a complete decoding with a successful allocation, by
      branch and path. */
  lemma AfterDecodeBranch(path: Path, img: Image, raw: RawImage)
    ensures var calls := AfterDecode(path, img, raw, true, Holdings(Held, Held, Unused)).calls;
            (CopySmallRaw(SmallRaw.RowPadding(img.makerModel, raw.subY)) in calls <==> SmallBranch(raw)) &&
            (FlipBuffers in calls <==> !SmallBranch(raw)) &&
            (RawToPreview in calls <==> path.Preview?)
  {
    var calls := AfterDecode(path, img, raw, true, Holdings(Held, Held, Unused)).calls;
    var padding := SmallRaw.RowPadding(img.makerModel, raw.subY);
    if SmallBranch(raw) {
      assert calls == (if path.Full? then [CopySmallRaw(padding), ImageRelease]
                       else [CopySmallRaw(padding), RawToPreview, ImageRelease]);
    } else {
      assert calls == (if path.Full? then [FlipBuffers, ImageRelease]
                       else [FlipBuffers, RawToPreview, ImageRelease]);
    }
  }

  /* ---------- image fields ---------- */

  /** Setting the raw flags again changes nothing. */
  lemma RawFlagsFixed(f: int)
    requires !Has(f, Ldr) && Has(f, Raw)
    ensures RawFlags(f) == f
  {
  }

  /** How either loader leaves the image: untouched unless decoding
      completes; then oriented to the raw dimensions, and in the small-raw
      branch marked raw (not LDR) with no CFA filter, while the standard
      branch takes the raw's bits per sample and filter, and marks the
      image raw (and HDR for float samples) exactly when there is a
      filter. Bits other than LDR, RAW and HDR never change. */
  lemma OpenImage(path: Path, dec: Decoding, metaLoaded: bool, allocOk: bool, img: Image)
    ensures var out := Open(path, dec, metaLoaded, allocOk, img).img;
            var raw := dec.raw;
            var f := img.flags;
            var g := out.flags;
            (FateOf(path, dec, metaLoaded) != Decoded ==> out == img) &&
            (FateOf(path, dec, metaLoaded) == Decoded ==>
               (out.width, out.height) == OrientedSize(img.orientation, raw.dimX, raw.dimY) &&
               out.orientation == img.orientation && out.makerModel == img.makerModel &&
               g % 32 == f % 32 && g / 256 == f / 256 &&
               (SmallBranch(raw) ==>
                  out.filters == 0 && out.bpp == img.bpp &&
                  !Has(g, Ldr) && Has(g, Raw) && (Has(g, Hdr) <==> Has(f, Hdr))) &&
               (!SmallBranch(raw) ==>
                  out.filters == raw.cfa && out.bpp == raw.bpp &&
                  (raw.cfa == 0 ==> g == f) &&
                  (raw.cfa != 0 ==> !Has(g, Ldr) && Has(g, Raw) && (Has(g, Hdr) <==> Has(f, Hdr) || raw.isFloat))))
  {
    OpenShape(path, dec, metaLoaded, allocOk, img);
    if FateOf(path, dec, metaLoaded) == Decoded && !SmallBranch(dec.raw) && dec.raw.cfa != 0 {
      var g := RawFlags(img.flags);
      var h := if dec.raw.isFloat then SetFlag(g, Hdr) else g;
      RawFlagsFixed(h);
    }
  }

  /** The preview loader leaves the image exactly as the full loader does
      when checkSupport behaves the same with and without failOnUnknown:
      re-marking a filtered image as raw after the copy changes nothing. */
  lemma PreviewMatchesFull(dec: Decoding, metaLoaded: bool, allocOk: bool, img: Image)
    requires dec.checkStrict == dec.checkDefault
    ensures Open(Preview, dec, metaLoaded, allocOk, img).img == Open(Full, dec, metaLoaded, allocOk, img).img
    ensures Open(Preview, dec, metaLoaded, allocOk, img).exit == Open(Full, dec, metaLoaded, allocOk, img).exit
  {
    OpenShape(Preview, dec, metaLoaded, allocOk, img);
    OpenShape(Full, dec, metaLoaded, allocOk, img);
    assert FateOf(Preview, dec, metaLoaded) == FateOf(Full, dec, metaLoaded);
    if FateOf(Full, dec, metaLoaded) == Decoded {
      AfterDecodePathAlike(img, dec.raw, allocOk);
    }
  }

  /** After a complete decoding both paths return the same code and leave
      the same image. */
  lemma AfterDecodePathAlike(img: Image, raw: RawImage, allocOk: bool)
    ensures var p := AfterDecode(Preview, img, raw, allocOk, Holdings(Held, Held, Unused));
            var f := AfterDecode(Full, img, raw, allocOk, Holdings(Held, Held, Unused));
            p.img == f.img && p.exit == f.exit
  {
    if !SmallBranch(raw) && raw.cfa != 0 {
      var g := RawFlags(img.(filters := 0).flags);
      var h := if raw.isFloat then SetFlag(g, Hdr) else g;
      RawFlagsFixed(h);
    }
  }

  /** The small-raw loaders pad rows by 72 samples exactly for a Canon EOS
      50D maker-model string with vertical subsampling 2. */
  lemma SrawPadding(path: Path, img: Image, raw: RawImage, held: Holdings)
    requires held.buffer == Unused
    requires SmallRaw.NulFree(img.makerModel)
    ensures var calls := OpenSraw(path, img, raw, true, held).calls;
            (CopySmallRaw(72) in calls <==>
               |img.makerModel| >= 13 && img.makerModel[..13] == "Canon EOS 50D" && raw.subY == 2) &&
            (CopySmallRaw(0) in calls <==>
               !(|img.makerModel| >= 13 && img.makerModel[..13] == "Canon EOS 50D" && raw.subY == 2))
  {
    SmallRaw.RowPaddingExactly(img.makerModel, raw.subY);
  }
}

=== FILE: smallraw.dfy ===
/*
 * Model of the index arithmetic of darktable's small-raw (sRAW/mRAW) copy in
 * src/common/imageio_rawspeed.cc: the Canon EOS 50D row-padding workaround
 * and the triple loop that copies three 16-bit samples per pixel into
 * four-float output pixels.
 *
 * Only integer index arithmetic is modelled. The float scaling of each
 * sample and the orientation-dependent pixel position (dt_imageio_write_pos,
 * which is not part of this model) are abstracted: the position is a
 * parameter function of (column, row).
 */
module SmallRaw {

  /* ---------- C strings ---------- */

  /** Character i of a C string whose content is s: reading past the end
      yields the terminating NUL. */
  function CharAt(s: string, i: nat): (c: char)
    ensures i >= |s| ==> c == '\0'
  {
    if i < |s| then s[i] else '\0'
  }

  /** s holds no embedded NUL, so the C string is exactly s. */
  predicate NulFree(s: string) {
    forall i :: 0 <= i < |s| ==> s[i] != '\0'
  }

  /** strncmp(a, b, n) == 0, checked from position i on: equal characters up
      to position n, stopping early at a NUL both strings share. */
  function StrnEqualFrom(a: string, b: string, i: nat, n: nat): (r: bool)
    ensures (forall k :: i <= k < n ==> CharAt(a, k) == CharAt(b, k)) ==> r
    ensures !r ==> exists k :: i <= k < n && CharAt(a, k) != CharAt(b, k)
    decreases n - i
  {
    if i >= n then true
    else if CharAt(a, i) != CharAt(b, i) then false
    else if CharAt(a, i) == '\0' then true
    else StrnEqualFrom(a, b, i + 1, n)
  }

  /** strncmp(a, b, n) == 0. */
  function StrnEqual(a: string, b: string, n: nat): bool {
    StrnEqualFrom(a, b, 0, n)
  }

  /** For NUL-free strings and a pattern at least n long, the strncmp walk
      from i agrees with comparing the slices [i..n]. */
  lemma {:induction false} StrnEqualFromSlices(a: string, b: string, i: nat, n: nat)
    requires NulFree(a) && NulFree(b)
    requires i <= n <= |b|
    requires i <= |a|
    ensures StrnEqualFrom(a, b, i, n) <==> (|a| >= n && a[i..n] == b[i..n])
    decreases n - i
  {
    if i >= n {
    } else if CharAt(a, i) != CharAt(b, i) {
      if |a| >= n {
        assert a[i..n][0] != b[i..n][0];
      }
    } else {
      assert CharAt(a, i) != '\0';
      assert i < |a|;
      StrnEqualFromSlices(a, b, i + 1, n);
      if |a| >= n {
        assert a[i..n] == [a[i]] + a[i + 1..n];
        assert b[i..n] == [b[i]] + b[i + 1..n];
      }
    }
  }

  /** strncmp(a, b, |b|) == 0 for NUL-free strings means b is a prefix of a. */
  lemma StrnEqualIsPrefix(a: string, b: string)
    requires NulFree(a) && NulFree(b)
    ensures StrnEqual(a, b, |b|) <==> (|a| >= |b| && a[..|b|] == b)
  {
    StrnEqualFromSlices(a, b, 0, |b|);
    assert b[0..|b|] == b;
    if |a| >= |b| {
      assert a[0..|b|] == a[..|b|];
    }
  }

  /* ---------- Canon EOS 50D row padding ---------- */

  const FiftyD: string := "Canon EOS 50D"

  /** Samples (not pixels) of padding at the end of each sRAW row of a
      Canon EOS 50D whose vertical subsampling is 2; zero otherwise. */
  function RowPadding(makerModel: string, subsamplingY: int): (extra: nat)
    ensures extra == 0 || extra == 72
    ensures extra == 72 ==> subsamplingY == 2
    ensures subsamplingY != 2 ==> extra == 0
  {
    if StrnEqual(makerModel, FiftyD, 13) && subsamplingY == 2 then 72 else 0
  }

  /** The padding is 72 exactly when the maker-model string begins with
      "Canon EOS 50D" and the vertical subsampling is 2. */
  lemma RowPaddingExactly(makerModel: string, subsamplingY: int)
    requires NulFree(makerModel)
    ensures RowPadding(makerModel, subsamplingY) == 72 <==>
            (|makerModel| >= 13 && makerModel[..13] == "Canon EOS 50D" && subsamplingY == 2)
  {
    assert NulFree(FiftyD) by {
      assert forall i :: 0 <= i < |FiftyD| ==> FiftyD[i] != '\0';
    }
    StrnEqualIsPrefix(makerModel, FiftyD);
  }

  /** A model name longer than "50D" on the same prefix (say "Canon EOS 50D
      Mark II", were there one) still gets the padding: only 13 characters
      are compared. */
  lemma PaddingMatchesLongerNames(suffix: string)
    requires NulFree(suffix)
    ensures RowPadding("Canon EOS 50D" + suffix, 2) == 72
  {
    var s := "Canon EOS 50D" + suffix;
    assert NulFree(s) by {
      forall i | 0 <= i < |s| ensures s[i] != '\0' {
        if i >= 13 {
          assert s[i] == suffix[i - 13];
        }
      }
    }
    assert s[..13] == "Canon EOS 50D";
    RowPaddingExactly(s, 2);
  }

  /* ---------- copy-loop index arithmetic ---------- */

  /** Index of sample k of pixel (row, col) in the sRAW buffer, whose rows
      hold width pixels of 3 samples each followed by extra samples of
      padding. */
  function SourceIndex(row: int, col: int, k: int, width: int, extra: int): (i: int)
    ensures 0 <= row && 0 <= col && 0 <= k && 0 <= width + extra ==> 0 <= i
  {
    NonNegProduct(row, width + extra);
    row * (width + extra) * 3 + col * 3 + k
  }

  /** A product of two natural numbers is a natural number. */
  lemma NonNegProduct(a: int, b: int)
    ensures 0 <= a && 0 <= b ==> 0 <= a * b
  {
    if 0 <= a && 0 <= b && a > 0 {
      MulAtLeast(a, b);
    }
  }

  /** Position of (row, col, k) when the loop nest is flattened: the number
      of iterations before it. */
  function Flat(row: int, col: int, k: int, width: int): int {
    SourceIndex(row, col, k, width, 0)
  }

  /** (r1, c1, k1) comes strictly before (r2, c2, k2) in row, column,
      sample order. */
  predicate Before(r1: int, c1: int, k1: int, r2: int, c2: int, k2: int) {
    r1 < r2 || (r1 == r2 && (c1 < c2 || (c1 == c2 && k1 < k2)))
  }

  /** d rows of s samples span at least one row. */
  lemma {:induction false} MulAtLeast(d: int, s: nat)
    requires d >= 1
    ensures d * s >= s
    decreases d
  {
    if d > 1 {
      MulAtLeast(d - 1, s);
      assert d * s == (d - 1) * s + s;
    }
  }

  /** Row r2 starts at least one full row after any earlier row r1 ends. */
  lemma RowStart(r1: int, r2: int, s: nat)
    requires r1 < r2
    ensures r1 * s + s <= r2 * s
  {
    MulAtLeast(r2 - r1, s);
    assert (r2 - r1) * s == r2 * s - r1 * s;
  }

  /** Source indices grow strictly in loop order. */
  lemma SourceIndexOrdered(r1: int, c1: int, k1: int, r2: int, c2: int, k2: int, width: int, extra: nat)
    requires 0 <= c1 < width && 0 <= c2 <= width
    requires 0 <= k1 < 3 && 0 <= k2 <= 3
    requires Before(r1, c1, k1, r2, c2, k2)
    ensures SourceIndex(r1, c1, k1, width, extra) < SourceIndex(r2, c2, k2, width, extra)
  {
    var stride := (width + extra) * 3;
    assert r1 * (width + extra) * 3 == r1 * stride;
    assert r2 * (width + extra) * 3 == r2 * stride;
    if r1 < r2 {
      RowStart(r1, r2, stride);
    }
  }

  /** Every index the loop reads for a pixel inside the image lies inside
      the padded buffer of height rows. */
  lemma SourceIndexBound(row: int, col: int, k: int, width: int, height: int, extra: nat)
    requires 0 <= row < height && 0 <= col < width && 0 <= k < 3
    ensures 0 <= SourceIndex(row, col, k, width, extra) < height * (width + extra) * 3
  {
    assert row * (width + extra) * 3 >= 0;
    SourceIndexOrdered(row, col, k, height, 0, 0, width, extra);
    assert SourceIndex(height, 0, 0, width, extra) == height * (width + extra) * 3;
  }

  /** Distinct (row, col, k) triples read distinct samples. */
  lemma SourceIndexInjective(r1: int, c1: int, k1: int, r2: int, c2: int, k2: int, width: int, extra: nat)
    requires 0 <= c1 < width && 0 <= c2 < width
    requires 0 <= k1 < 3 && 0 <= k2 < 3
    requires SourceIndex(r1, c1, k1, width, extra) == SourceIndex(r2, c2, k2, width, extra)
    ensures r1 == r2 && c1 == c2 && k1 == k2
  {
    if Before(r1, c1, k1, r2, c2, k2) {
      SourceIndexOrdered(r1, c1, k1, r2, c2, k2, width, extra);
    } else if Before(r2, c2, k2, r1, c1, k1) {
      SourceIndexOrdered(r2, c2, k2, r1, c1, k1, width, extra);
    }
  }

  /** One store of the copy loop: output float dst receives source sample src. */
  datatype Write = Write(dst: int, src: int)

  /** The stores the small-raw copy loop performs, in order, for a width x
      height image with extra samples of padding per source row. pos gives
      the output pixel a (column, row) lands on; each output pixel is 4
      floats wide. */
  method CopyIndices(width: nat, height: nat, extra: nat, pos: (int, int) -> int)
    returns (writes: seq<Write>)
    ensures |writes| == height * width * 3
    ensures forall n :: 0 <= n < |writes| ==>
              0 <= writes[n].src < height * (width + extra) * 3
    ensures forall n :: 0 <= n < |writes| ==> writes[n].dst % 4 != 3
    ensures forall n, m :: 0 <= n < m < |writes| ==> writes[n].src < writes[m].src
    ensures forall r, c, k :: 0 <= r < height && 0 <= c < width && 0 <= k < 3 ==>
              Flat(r, c, k, width) < |writes| &&
              writes[Flat(r, c, k, width)] == Write(4 * pos(c, r) + k, SourceIndex(r, c, k, width, extra))
  {
    writes := [];
    var row := 0;
    while row < height
      invariant 0 <= row <= height
      invariant |writes| == Flat(row, 0, 0, width)
      invariant forall n :: 0 <= n < |writes| ==>
                  0 <= writes[n].src < SourceIndex(row, 0, 0, width, extra)
      invariant forall n :: 0 <= n < |writes| ==> writes[n].dst % 4 != 3
      invariant forall n, m :: 0 <= n < m < |writes| ==> writes[n].src < writes[m].src
      invariant forall r, c, k :: 0 <= r && 0 <= c < width && 0 <= k < 3 && Before(r, c, k, row, 0, 0) ==>
                  Flat(r, c, k, width) < |writes| &&
                  writes[Flat(r, c, k, width)] == Write(4 * pos(c, r) + k, SourceIndex(r, c, k, width, extra))
    {
      var col := 0;
      while col < width
        invariant 0 <= col <= width
        invariant |writes| == Flat(row, col, 0, width)
        invariant forall n :: 0 <= n < |writes| ==>
                    0 <= writes[n].src < SourceIndex(row, col, 0, width, extra)
        invariant forall n :: 0 <= n < |writes| ==> writes[n].dst % 4 != 3
        invariant forall n, m :: 0 <= n < m < |writes| ==> writes[n].src < writes[m].src
        invariant forall r, c, k :: 0 <= r && 0 <= c < width && 0 <= k < 3 && Before(r, c, k, row, col, 0) ==>
                    Flat(r, c, k, width) < |writes| &&
                    writes[Flat(r, c, k, width)] == Write(4 * pos(c, r) + k, SourceIndex(r, c, k, width, extra))
      {
        var k := 0;
        while k < 3
          invariant 0 <= k <= 3
          invariant |writes| == Flat(row, col, k, width)
          invariant forall n :: 0 <= n < |writes| ==>
                      0 <= writes[n].src < SourceIndex(row, col, k, width, extra)
          invariant forall n :: 0 <= n < |writes| ==> writes[n].dst % 4 != 3
          invariant forall n, m :: 0 <= n < m < |writes| ==> writes[n].src < writes[m].src
          invariant forall r, c, kk :: 0 <= r && 0 <= c < width && 0 <= kk < 3 && Before(r, c, kk, row, col, k) ==>
                      Flat(r, c, kk, width) < |writes| &&
                      writes[Flat(r, c, kk, width)] == Write(4 * pos(c, r) + kk, SourceIndex(r, c, kk, width, extra))
        {
          var w := Write(4 * pos(col, row) + k, SourceIndex(row, col, k, width, extra));
          StoreStep(writes, w, row, col, k, width, extra, pos);
          writes := writes + [w];
          k := k + 1;
        }
        NextColumn(row, col, width, extra);
        col := col + 1;
      }
      NextRow(row, width, extra);
      row := row + 1;
    }
    forall r, c, k | 0 <= r < height && 0 <= c < width && 0 <= k < 3
      ensures Before(r, c, k, height, 0, 0)
    {
    }
    assert SourceIndex(height, 0, 0, width, extra) == height * (width + extra) * 3;
  }

  /** The last sample of a pixel is followed by the first of the next pixel. */
  lemma NextColumn(row: int, col: int, width: int, extra: int)
    ensures Flat(row, col, 3, width) == Flat(row, col + 1, 0, width)
    ensures SourceIndex(row, col, 3, width, extra) == SourceIndex(row, col + 1, 0, width, extra)
  {
  }

  /** The end of a row's pixels is the start of the next row; its padding
      lies in between in the source. */
  lemma NextRow(row: int, width: int, extra: nat)
    ensures Flat(row, width, 0, width) == Flat(row + 1, 0, 0, width)
    ensures SourceIndex(row, width, 0, width, extra) <= SourceIndex(row + 1, 0, 0, width, extra)
  {
    assert (row + 1) * width * 3 == row * width * 3 + width * 3;
    assert (row + 1) * (width + extra) * 3 == row * (width + extra) * 3 + width * 3 + extra * 3;
  }

  /** Appending the store for (row, col, k) keeps the loop invariants. */
  lemma StoreStep(writes: seq<Write>, w: Write, row: int, col: int, k: int, width: int, extra: nat,
                  pos: (int, int) -> int)
    requires 0 <= row && 0 <= col < width && 0 <= k < 3
    requires |writes| == Flat(row, col, k, width)
    requires w == Write(4 * pos(col, row) + k, SourceIndex(row, col, k, width, extra))
    requires forall n :: 0 <= n < |writes| ==>
               0 <= writes[n].src < SourceIndex(row, col, k, width, extra)
    requires forall n :: 0 <= n < |writes| ==> writes[n].dst % 4 != 3
    requires forall n, m :: 0 <= n < m < |writes| ==> writes[n].src < writes[m].src
    requires forall r, c, kk :: 0 <= r && 0 <= c < width && 0 <= kk < 3 && Before(r, c, kk, row, col, k) ==>
               Flat(r, c, kk, width) < |writes| &&
               writes[Flat(r, c, kk, width)] == Write(4 * pos(c, r) + kk, SourceIndex(r, c, kk, width, extra))
    ensures var ws := writes + [w];
            |ws| == Flat(row, col, k + 1, width) &&
            (forall n :: 0 <= n < |ws| ==> 0 <= ws[n].src < SourceIndex(row, col, k + 1, width, extra)) &&
            (forall n :: 0 <= n < |ws| ==> ws[n].dst % 4 != 3) &&
            (forall n, m :: 0 <= n < m < |ws| ==> ws[n].src < ws[m].src) &&
            (forall r, c, kk :: 0 <= r && 0 <= c < width && 0 <= kk < 3 && Before(r, c, kk, row, col, k + 1) ==>
               Flat(r, c, kk, width) < |ws| &&
               ws[Flat(r, c, kk, width)] == Write(4 * pos(c, r) + kk, SourceIndex(r, c, kk, width, extra)))
  {
    var ws := writes + [w];
    assert 0 <= SourceIndex(row, col, k, width, extra) by {
      assert row * (width + extra) * 3 >= 0;
    }
    assert w.dst % 4 == k;
    forall r, c, kk | 0 <= r && 0 <= c < width && 0 <= kk < 3 && Before(r, c, kk, row, col, k + 1)
      ensures Flat(r, c, kk, width) < |ws|
      ensures ws[Flat(r, c, kk, width)] == Write(4 * pos(c, r) + kk, SourceIndex(r, c, kk, width, extra))
    {
      if Before(r, c, kk, row, col, k) {
        var i := Flat(r, c, kk, width);
        assert i < |writes|;
        assert ws[i] == writes[i];
      } else {
        assert r == row && c == col && kk == k;
        assert ws[|writes|] == w;
      }
    }
  }
}
